=== FILE: README.md ===
# Math-quiz backend: a verified model of its domain services

This project models, in Dafny, the in-memory domain logic of a math-quiz backend,
a FastAPI service. Players register and log in, with a password or a Google id
token. Each login extends or restarts a daily login streak. Players keep a
profile with xp, level and lesson progress. They play timed quiz sessions whose
answers are checked after `strip().lower()` normalisation. Finishing a session
pays 10 xp per correct answer and writes the player's entry in a global
leaderboard. The leaderboard is ordered by xp, highest first, with ties broken
by user id.

The model follows the source file by file:

| file | module | what it holds |
|---|---|---|
| `wrappers.dfy` | `Wrappers` | `Option`, `Result` and `HttpError` (an HTTPException is an error result carrying a status code and detail) |
| `text.dfy` | `Text` | `strip`, `lower`, `startswith`, `split(" ", 1)` and the ordering of `str` |
| `dates.dfy` | `Dates` | calendar dates, the day before and after, `isoformat` and `fromisoformat` |
| `memory.dfy` | `Memory` | the store (`MemoryStore`), profiles and game sessions as classes, the other records as datatypes |
| `game_service.py` → `game_service.dfy` | `Game` | the session state machine `start` / `answer` / `finish` |
| `ranking_service.py` → `ranking_service.dfy` | `Ranking` | the leaderboard order, positions, upsert and lazy creation |
| `user_service.py` → `user_service.dfy` | `Users` | profile defaults, partial update and statistics |
| `progress_service.py` → `progress_service.dfy` | `Progress` | clamped xp changes, progress merge and level recomputation |
| `auth_service.py` → `auth_service.dfy` | `Auth` | registration, the login paths, Bearer headers, sessions and the login streak |

Services that update objects in place are classes over the store, for example
`GameService` and `UserService`. Their methods name in `modifies` exactly the
fields they write. The services' key operations are proved against a pure
specification function, and lemmas state what the source promises about that
function:
- `Users.UserService.UpdateProfile` against `Users.Patched` (`update_profile`);
- `Auth.AuthService.TouchLogin` against `Auth.Touched` (`_touch_login`);
- `Game.GameService.Answer` against `Memory.CountCorrect` (the answer count);
- `Ranking.RankingService.EntryWithPosition` against `Ranking.Position` (the
  leaderboard position).

Registration, the logins and `start` are specified directly by their effect on
the store.

The store invariant `MemoryStore.Valid` is preserved by every operation. It says:
- every record sits under its own key;
- statistics never claim more correct answers than answers;
- every game session's `correct_count` equals the number of its questions whose
  latest stored answer is correct.

Some of the program's environment is given as parameters:
- The level curve `calculate_level` is not part of this model. Each service
  takes it as an uninterpreted function `calculateLevel`.
- Randomness, uuids, the clock and the token generators are parameters or
  nondeterministic choices:
  - `random.sample` is `Game.Sample`;
  - the session id is `sessionId`;
  - the timestamp is `now`;
  - today's date is `today`;
  - the session token is `token`.
- PBKDF2, base64 and the JWT decoding are a `Security` value holding a hash
  function, a verify predicate and an email decoder.

## Model

| member | source | states |
|---|---|---|
| `Wrappers.OrElse` | app/services/ranking_service.py:25 | `a or b` on optional text: `a` unless it is None or empty, else `b` |
| `Text.Strip` | app/services/game_service.py:57-58 | the result has no whitespace at either end, and it is empty exactly when the input is all whitespace |
| `Text.StripCutsOuterSpace` | app/services/game_service.py:57-58 | the strip is a slice of the input with only whitespace before and after it; with `Text.Strip`'s ends, this is exactly the input with its outer whitespace removed |
| `Text.Normalize` | app/services/game_service.py:57-58 | the answer normalisation, written as one recursion that drops a space at either end and then lower-cases; its meaning is stated by `Text.NormalizeIsLowerStrip` |
| `Text.NormalizeIsLowerStrip` | app/services/game_service.py:57-58 | the answer normalisation equals `lower(strip(s))` for every string |
| `Text.NormalizeIdempotent` | app/services/game_service.py:57-62 | normalising twice is normalising once |
| `Text.AfterFirstPrefix` | app/services/auth_service.py:96 | for a header that starts with `Bearer `, `split(" ", 1)[1]` is the text after that prefix |
| `Text.LexLessIrreflexive` | app/services/ranking_service.py:87 | `str` comparison is irreflexive |
| `Text.LexLessAsymmetric` | app/services/ranking_service.py:87 | `str` comparison is asymmetric |
| `Text.LexLessTransitive` | app/services/ranking_service.py:87 | `str` comparison is transitive |
| `Text.LexLessTotal` | app/services/ranking_service.py:87 | any two different strings are ordered one way or the other |
| `Dates.NextDay` | app/services/auth_service.py:127 | the next day is a valid date, absent only after 9999-12-31 |
| `Dates.PrevDay` | app/services/auth_service.py:127 | `today - timedelta(days=1)` is the date whose next day is today, absent only at 0001-01-01 |
| `Dates.Ordinal` | app/services/auth_service.py:127 | `date.toordinal()`: the day number of a valid date, 0001-01-01 being day 1 |
| `Dates.NextDayOrdinal` | app/services/auth_service.py:127 | the next day is numbered exactly one more than the date |
| `Dates.NextThenPrev` | app/services/auth_service.py:127 | the day before tomorrow is today |
| `Dates.FormatIso` | app/services/auth_service.py:133 | `isoformat()` is ten characters with dashes at positions 4 and 7 |
| `Dates.ParseIso` | app/services/auth_service.py:142 | `fromisoformat` yields only valid dates |
| `Dates.IsoRoundTrip` | app/services/auth_service.py:133 | a stored date reads back as the same date |
| `Dates.IsoCanonical` | app/services/auth_service.py:142 | text that parses is the `isoformat` of the date it denotes |
| `Memory.PlayerProfile.constructor` | app/services/user_service.py:31-45 | a profile with every field given and zero statistics |
| `Memory.PlayerProfile.WithDefaults` | app/services/auth_service.py:118 | a profile with id, email and language given and every other field at its default |
| `Memory.GameSessionRecord.constructor` | app/services/game_service.py:33-39 | a new session has no answers, no correct answers and is not finished |
| `Memory.Merge` | app/services/user_service.py:65-66 | `dict.update`: every key of either map, the patch's value where it has one, the old value elsewhere |
| `Memory.MergeIdempotent` | app/services/user_service.py:65-66 | merging the same patch twice is merging it once |
| `Memory.MergeEmpty` | app/services/progress_service.py:20-21 | an empty patch changes nothing |
| `Memory.CountCorrect` | app/services/game_service.py:59-72 | the number of a session's questions whose latest answer is correct, at most the number of questions |
| `Memory.QuestionIds` | app/services/game_service.py:37 | one id per selected question |
| `Memory.MemoryStore.constructor` | app/storage/memory.py:14-17 | an empty store satisfies the store invariant |
| `Memory.MemoryStore.GetUser` | app/storage/memory.py:19-20 | the record stored under an email, None for an unknown one |
| `Memory.MemoryStore.SetUser` | app/storage/memory.py:22-23 | after `set_user(email, r)`, `get_user(email)` is `r` and every other email's record is unchanged |
| `Memory.MemoryStore.CreateSession` | app/storage/memory.py:25-26 | the token maps to the email, overwriting any earlier mapping of that token |
| `Memory.MemoryStore.GetEmailForSession` | app/storage/memory.py:28-29 | None exactly for an unknown token |
| `Memory.MemoryStore.DeleteSession` | app/storage/memory.py:31-32 | only the given token is removed, and an unknown token is a no-op |
| `Memory.MemoryStore.SetResetToken` | app/storage/memory.py:34-35 | only the latest reset token per email is kept |
| `Memory.MemoryStore.GetProfile` | app/services/user_service.py:93-97 | the profile stored under an id, None for an unknown id |
| `Memory.MemoryStore.SetProfile` | app/services/user_service.py:46 | the profile is stored under its own id and the store invariant is kept |
| `Memory.MemoryStore.GetProfileByEmail` | app/services/ranking_service.py:56 | some profile with that email, or None when no profile has it |
| `Memory.MemoryStore.GetQuestion` | app/services/game_service.py:54-56 | the bank's question of that id, None for an unknown id |
| `Memory.MemoryStore.ListQuestionsByLevel` | app/services/game_service.py:26 | every question of the level exactly once, and nothing else |
| `Memory.MemoryStore.GetGameSession` | app/services/game_service.py:108-112 | the session stored under an id, None for an unknown id |
| `Memory.MemoryStore.CreateGameSession` | app/services/game_service.py:40 | the session is stored under its id and the store invariant is kept |
| `Memory.MemoryStore.GetRankingEntry` | app/services/ranking_service.py:59 | the entry of a user, None when there is none |
| `Memory.MemoryStore.SetRankingEntry` | app/services/ranking_service.py:38 | the entry replaces any earlier entry of its user, and the map stays keyed by user id |
| `Memory.MemoryStore.ListRanking` | app/services/ranking_service.py:86 | every stored entry exactly once |
| `Game.TimeLimit` | app/services/game_service.py:122-123 | the session's time limit is `60 + 15 × level` seconds, so at least a minute for a non-negative level and 15 seconds more per level |
| `Game.ToOut` | app/services/game_service.py:114-120 | a question's public form carries its id, level, prompt and choices; `QuestionOut` has no answer field |
| `Game.QuestionsOut` | app/services/game_service.py:114-120 | one shown question per session question, with the bank's prompt and choices and never the answer |
| `Game.LevelListingSize` | app/services/game_service.py:26-29 | the listing of a level has as many questions as the level has |
| `Game.SelectionIsDraw` | app/services/game_service.py:29-37 | the selected questions are distinct questions of the level: all of them when `question_count` covers them, else exactly `question_count` |
| `Game.CountWithoutAnswers` | app/services/game_service.py:33-39 | a session without answers has no correct answers, so a new session starts consistent |
| `Game.CountIgnoresOthers` | app/services/game_service.py:64 | storing an answer for a question outside the list leaves the list's count alone |
| `Game.CountAfterAnswer` | app/services/game_service.py:59-72 | overwriting one question's answer moves the count by exactly the flip correction: +1 for wrong or absent to right, -1 for right to wrong, 0 otherwise |
| `Game.CountByCorrectness` | app/services/game_service.py:59-72 | the count depends only on which stored answers are correct |
| `Game.ResubmissionKeepsCount` | app/services/game_service.py:59-72 | resubmitting an answer that is right exactly when the stored one is leaves the count unchanged, so right, wrong, right returns to the first count |
| `Game.Sample` | app/services/game_service.py:32 | `random.sample`: `k` distinct questions, each from the listing |
| `Game.Select` | app/services/game_service.py:29-32 | the whole listing when the count covers it, else exactly `count` distinct questions of it |
| `Game.GameService.Start` | app/services/game_service.py:21-46 | 400 for a count of zero or less, 404 for a missing profile or an empty level, and no session in these cases; otherwise it succeeds, with a fresh unanswered session whose ids are a valid draw, with time limit `60 + 15 × level`, returned without answers |
| `Game.GameService.Open` | app/services/game_service.py:33-46 | stores the new session over the selected ids and shows their questions |
| `Game.GameService.Answer` | app/services/game_service.py:48-77 | 409 on a finished session, 400 for a question outside the session, 404 for an unknown question, each leaving the session unchanged; otherwise it succeeds: the raw answer overwrites the stored one, the count changes by the flip correction and stays equal to the number of correct stored answers, and the expected answer is revealed only on a wrong submission |
| `Game.GameService.Reward` | app/services/game_service.py:90-94 | xp grows by the reward, the level is recomputed from the new xp, and one game with its questions and correct answers is added to the statistics |
| `Game.GameService.Finish` | app/services/game_service.py:79-106 | 404 for an unknown session and 409 for a finished one, the second changing nothing; otherwise the session is marked finished even if the profile is missing (404); xp grows by `10 × correct_count`, the level is `calculate_level(xp)`, the statistics grow by one game, `|question_ids|` questions and `correct_count` correct answers, and the ranking entry is replaced |
| `Ranking.AheadIrreflexive` | app/services/ranking_service.py:87 | no entry sorts before itself under the key (-xp, user_id) |
| `Ranking.AheadAsymmetric` | app/services/ranking_service.py:87 | two entries are never each before the other |
| `Ranking.AheadTransitive` | app/services/ranking_service.py:87 | the sort key order is transitive |
| `Ranking.AheadTotal` | app/services/ranking_service.py:87 | entries of different users are always ordered |
| `Ranking.Insert` | app/services/ranking_service.py:87 | inserting into a sorted list keeps it sorted and adds exactly that entry |
| `Ranking.SortByRank` | app/services/ranking_service.py:85-88 | the sorted entries are ordered by xp descending, then user id ascending, and are a permutation of the input |
| `Ranking.SortedListing` | app/services/ranking_service.py:85-88 | sorting a listing of the ranking map gives a sorted listing of the same map |
| `Ranking.SortedUnique` | app/services/ranking_service.py:87 | two sorted permutations of the same entries are equal, so the order does not depend on how the store lists its entries |
| `Ranking.Position` | app/services/ranking_service.py:71-83 | a user's position is one more than the number of entries ahead of theirs, so at least 1 |
| `Ranking.PositionBounds` | app/services/ranking_service.py:71-83 | a position lies between 1 and the number of entries |
| `Ranking.PositionMonotone` | app/services/ranking_service.py:71-83 | an entry ahead of another has a smaller position |
| `Ranking.PositionInSorted` | app/services/ranking_service.py:72-82 | the 1-based index of a user in the sorted order is one more than the number of entries ahead of theirs |
| `Ranking.Positioned` | app/services/ranking_service.py:43-53 | entry `i` of the list carries position `i + 1` |
| `Ranking.LeaderboardFacts` | app/services/ranking_service.py:41-53 | the leaderboard lists every stored entry exactly once, positions run 1..n, and xp never increases down the list |
| `Ranking.RankingService.SortedEntries` | app/services/ranking_service.py:85-88 | the stored entries, sorted by (-xp, user_id) |
| `Ranking.RankingService.EntryWithPosition` | app/services/ranking_service.py:71-83 | the stored entry of the user with its position in the current order, or 404 when the user has no entry |
| `Ranking.RankingService.GlobalRanking` | app/services/ranking_service.py:41-53 | every entry once, in order, with positions 1..n; being read-only, two calls in a row return the same list |
| `Ranking.RankingService.Update` | app/services/ranking_service.py:14-39 | with a profile, the given xp/level are written to it and the entry mirrors it, named by display name or else email, ignoring the caller's name; without one, 404 unless both xp and level are given, else an entry from the arguments; either way exactly one entry for the user |
| `Ranking.RankingService.GetMe` | app/services/ranking_service.py:55-69 | 404 when no profile has the email; an existing entry is returned as is, otherwise one is built from the profile and stored |
| `Users.NewProfile` | app/services/user_service.py:15-45 | the creation defaults: xp 0, level `calculate_level(xp)` unless given, streak 0, longest streak = current streak, lessons 0, language "pt" also for "", progress `{}` |
| `Users.NewProfileHasLanguage` | app/services/user_service.py:35 | a created profile always has a non-empty language |
| `Users.PatchedKeepsAbsentFields` | app/services/user_service.py:55-76 | every field whose payload value is None keeps its value, and the id and email never change |
| `Users.PatchedTakesGivenFields` | app/services/user_service.py:55-76 | every supplied field takes the supplied value |
| `Users.PatchedLevelPrecedence` | app/services/user_service.py:59-64 | an explicit level always wins; xp without a level recomputes the level from the new xp |
| `Users.PatchedMergesProgress` | app/services/user_service.py:65-66 | the progress patch is merged key by key: supplied keys are overwritten, other keys kept, none dropped |
| `Users.PatchedIdempotent` | app/services/user_service.py:53-77 | applying the same patch twice is applying it once |
| `Users.PatchedEmpty` | app/services/user_service.py:53-77 | an empty patch changes nothing |
| `Users.UserService.CreateProfile` | app/services/user_service.py:12-47 | 409 with the store unchanged for an existing id; otherwise a fresh profile with the creation defaults and zero statistics |
| `Users.ToOut` | app/services/user_service.py:99-113 | a profile's public form copies every field but the statistics |
| `Users.Patched` | app/services/user_service.py:53-77 | what `update_profile` makes of a profile; it never changes the id or the email, and the `Users.Patched*` lemmas state the rest |
| `Users.UserService.GetProfile` | app/services/user_service.py:49-51 | the profile, or 404 for an unknown id |
| `Users.UserService.UpdateProfile` | app/services/user_service.py:53-77 | 404 for an unknown id; otherwise the profile becomes `Patched` of itself and its statistics are untouched |
| `Users.UserService.Patch` | app/services/user_service.py:55-76 | the field assignments turn the profile into `Patched` of its old value |
| `Users.UserService.PatchNames` | app/services/user_service.py:55-58 | display name and language are replaced only when supplied |
| `Users.UserService.PatchProgression` | app/services/user_service.py:59-66 | xp, level and progress are patched with the level precedence and key-wise merge |
| `Users.UserService.PatchStreaks` | app/services/user_service.py:67-76 | the streak and lesson fields are replaced only when supplied |
| `Users.UserService.GetStats` | app/services/user_service.py:79-91 | the integer statistics, never more correct answers than answers, or 404 |
| `Progress.ApplyDelta` | app/services/progress_service.py:18-19 | a zero delta leaves xp unchanged; any other delta gives `max(0, xp + delta)`, never negative |
| `Progress.ApplyDeltaKeepsNonNegative` | app/services/progress_service.py:18-19 | non-negative xp stays non-negative under any delta |
| `Progress.GainThenLoss` | app/services/progress_service.py:18-19 | a gain is undone by the matching loss |
| `Progress.SameSignDeltasCompose` | app/services/progress_service.py:18-19 | two gains, or two losses, compose into one change by their sum |
| `Progress.LossThenGainLosesTheExcess` | app/services/progress_service.py:19 | for every xp and every loss larger than it, the matching gain afterwards ends at the size of the loss, not at the starting xp |
| `Progress.MergedProgress` | app/services/progress_service.py:20-21 | a non-empty patch is merged key by key; an absent or empty one leaves progress untouched |
| `Progress.ProgressService.Update` | app/services/progress_service.py:14-28 | 404 for an unknown user with nothing changed; otherwise xp is `ApplyDelta`, progress is merged, and the level is always `calculate_level(xp)` |
| `Progress.ProgressService.Apply` | app/services/progress_service.py:18-22 | the three profile assignments of `update`, in order |
| `Progress.ProgressService.Get` | app/services/progress_service.py:30-37 | read-only: the current xp, level and progress, or 404 |
| `Auth.LoginAccepts` | app/services/auth_service.py:33-40 | the guards of `login`: a known `local` account with a non-empty salt and hash against which the password verifies |
| `Auth.RegisteredCanLogin` | app/services/auth_service.py:33-40 | with sound cryptography and a non-empty salt, the record `register` stores passes every guard of `login` |
| `Auth.GoogleUserCannotUsePassword` | app/services/auth_service.py:35-38 | a `google` account never passes the password login |
| `Auth.ParseDate` | app/services/auth_service.py:138-144 | None for an absent, empty or unparsable date; a parsed date is written exactly as stored |
| `Auth.ParseDateOfStored` | app/services/auth_service.py:138-144 | the date `_touch_login` stores reads back as that date |
| `Auth.Touched` | app/services/auth_service.py:122-133 | after a login, today is the last login date, the longest streak never shrinks, and longest ≥ current is kept |
| `Auth.TouchedSameDay` | app/services/auth_service.py:124-126 | for any stored streak whose last login parses as today, a login changes nothing |
| `Auth.TouchedNextDay` | app/services/auth_service.py:127-133 | for any stored streak whose last login parses as yesterday, the streak grows by one, the record becomes the larger of it and the new streak, and today is noted |
| `Auth.TouchedTwiceIsOnce` | app/services/auth_service.py:125-126 | a second login on the same day changes nothing |
| `Auth.TouchedOnConsecutiveDays` | app/services/auth_service.py:127-132 | a login the day after the last one grows the streak by one and raises the record to match |
| `Auth.TouchedAfterGap` | app/services/auth_service.py:129-132 | after a gap, or with no usable last login, the streak restarts at 1 |
| `Auth.ExtractToken` | app/services/auth_service.py:93-99 | a token exactly for a header starting with `Bearer ` and with a non-blank rest, which is the token, stripped; otherwise 401 "Not authenticated" |
| `Auth.BearerRoundTrip` | app/services/auth_service.py:93-99 | a token without surrounding whitespace, sent as `Bearer <token>`, is extracted unchanged |
| `Auth.AuthenticatedEmail` | app/services/auth_service.py:81-86 | the email of a live session named by the header; 401 "Not authenticated" for a missing or malformed header, 401 "Invalid session" for an unknown token or empty email |
| `Auth.UserFromHeader` | app/services/auth_service.py:101-109 | the account behind the header's session, 401 also when that email has no account |
| `Auth.SessionOf` | app/services/auth_service.py:65-72 | authenticated exactly when the header names a live session of a known user |
| `Auth.SignedInIsAuthenticated` | app/services/auth_service.py:88-91 | a freshly issued token, presented as a Bearer header, authenticates its email |
| `Auth.LoggedOutIsUnauthenticated` | app/services/auth_service.py:59-63 | once its token is removed, the header no longer authenticates |
| `Auth.AuthService.EnsureProfile` | app/services/auth_service.py:114-120 | an existing profile is returned unchanged, otherwise a default one with language "pt" is created; a second call finds the first's profile |
| `Auth.AuthService.TouchLogin` | app/services/auth_service.py:122-133 | the profile's streak becomes `Touched` of its old streak |
| `Auth.AuthService.EnsureTouched` | app/services/auth_service.py:41-42 | ensure the profile, then touch its streak |
| `Auth.AuthService.SignIn` | app/services/auth_service.py:41-43 | ensure the profile, touch the streak and map the new token to the email |
| `Auth.AuthService.Register` | app/services/auth_service.py:16-31 | 409 for a known email with nothing changed; otherwise a `local` account with salt and hash, a session token for the email, and a touched streak on the profile, which is the same object when one existed under the id and otherwise a fresh one with the sign-in defaults |
| `Auth.AuthService.Login` | app/services/auth_service.py:33-44 | success exactly when the account is `local`, has salt and hash and the password verifies; every failure is 401 and touches no profile, streak or session; a success keeps the user's existing profile object (or creates one with the sign-in defaults), touches its streak and adds a session |
| `Auth.AuthService.LoginGoogle` | app/services/auth_service.py:46-57 | 400 with nothing changed for a token without an email; otherwise the account of that email, created as `google` when absent, then a sign-in that keeps an existing profile object or creates one with the sign-in defaults |
| `Auth.AuthService.GoogleAccount` | app/services/auth_service.py:50-53 | the account registered under the email, or a new `google` account under the fresh id, stored under the email |
| `Auth.AuthService.Logout` | app/services/auth_service.py:59-63 | fails as `_get_user_from_header` fails, changing nothing; otherwise removes exactly the presented token |
| `Auth.AuthService.ResetPassword` | app/services/auth_service.py:74-79 | a known email's reset token is replaced; the reply is the same whether or not the email is known |

## Left out

- The HTTP layer, the routes and the pydantic schemas are not part of this model. Results are the services' own values.
- `app/services/log_service.py` and `app/services/question_service.py` are not part of this model. The first is I/O; the second passes through to store methods.
- The floating-point `accuracy` of `get_stats` is not modelled; only the integer counters are.
- Concurrency: there is none in the source. Every operation is modelled as one sequential step.
- `calculate_level` is not part of this model and stays uninterpreted. Every level property is stated relative to it.
- These are parameters, and the model does not show any of them to be fresh:
  - PBKDF2 hashing, base64, `secrets` tokens and JWT decoding (a `Security` value, `saltB64`, `token`, `resetToken`);
  - `uuid4` (`sessionId`, `userId`, `newUserId`);
  - the clock (`now`, `today`).

  A colliding value overwrites, as the dictionaries do.
- `Text.Lower`: only ASCII letters are lower-cased. Python's `str.lower` is Unicode-wide.
- `Dates.ParseIso`: only the extended `YYYY-MM-DD` form of `date.fromisoformat` is accepted. Python 3.11 and later also accept other ISO 8601 forms; a stored date in one of those forms would read as "no previous login" here.
- `Auth.Touched`: requires that today is not 0001-01-01. There `today - timedelta(days=1)` raises OverflowError in Python.
- `Ranking.SortByRank`: `list.sort` is modelled as an insertion sort. `Ranking.SortedUnique` shows that every sort of the entries gives the same sequence, because the key is total over distinct user ids.
- `Memory.MemoryStore.GetProfileByEmail`: when several profiles share an email, the model picks any one of them. The store's `get_profile_by_email` is not part of the source shown, so which one it returns is unknown.
- Aliasing is not modelled. `update_profile` and `update` merge into the profile's own `progress` dict in place, and `create_profile` keeps the payload's dict object. Here the progress map is a value.
- The record classes `PlayerProfile`, `PlayerStats`, `QuestionRecord`, `GameSessionRecord` and `RankingEntry` are used by the services but not defined in the shown `memory.py`. So are the store's profile, question, game-session and ranking methods. They are reconstructed from their uses. The defaults are a reconstruction too: level 1, streaks 0, no login or lesson dates, zero statistics.
- `Game.GameService.Finish`: the ranking entry's `updated_at` is the parameter `now`. `finish` leaves it to the default of `RankingEntry`, which is not part of this model; a timestamp taken when the entry is built is assumed.
- Two behaviours follow the code where a reader might expect otherwise:
  - `finish` writes a ranking entry without a display name, replacing any earlier one.
  - `finish` marks the session finished before looking up the profile, so a missing profile leaves a finished session behind.
- `longest_streak >= current_streak` is not enforced by `create_profile` or `update_profile`. `Auth.Touched` only keeps it when it already holds.

=== FILE: auth_service.dfy ===
/** Accounts and sign-in: registration and the three login paths, the Bearer
  * header, session tokens and the daily login streak kept on the profile. */
module Auth {
  import opened Wrappers
  import opened Text
  import opened Dates
  import opened Memory

  /** The cryptographic capabilities the service draws on, taken as given:
    * `hashB64(password, saltB64)` is the base64 PBKDF2 hash of a password,
    * `verify(password, saltB64, hashB64)` checks one, and `decodeEmail` reads the
    * `email` claim of an unverified Google id token. */
  datatype Security = Security(
    hashB64: (string, string) -> string,
    verify: (string, string, string) -> bool,
    decodeEmail: string -> Option<string>)

  /** A hash is never empty, and a password always verifies against its own hash. */
  ghost predicate Sound(sec: Security)
  {
    forall password, saltB64 ::
      sec.hashB64(password, saltB64) != "" && sec.verify(password, saltB64, sec.hashB64(password, saltB64))
  }

  datatype UserOut = UserOut(id: string, email: string, provider: string)
  datatype AuthOut = AuthOut(accessToken: string, tokenType: string, user: UserOut)
  datatype SessionOut = SessionOut(authenticated: bool, user: Option<UserOut>)
  datatype MessageOut = MessageOut(detail: string)

  const BearerPrefix := "Bearer "
  const ResetMessage := "If the email exists, a reset link was sent."

  /** The credential `register` stores for a password. */
  function LocalRecord(sec: Security, userId: string, password: string, saltB64: string): UserRecord
  {
    UserRecord(userId, "local", Some(saltB64), Some(sec.hashB64(password, saltB64)))
  }

  /** The guards of `login`: a known `local` user with a non-empty salt and hash
    * against which the password verifies. */
  predicate LoginAccepts(sec: Security, user: Option<UserRecord>, password: string): (ok: bool)
    ensures ok ==> user.Some? && user.value.provider == "local" && user.value.pwHashB64 != Some("")
  {
    && user.Some? && user.value.provider == "local"
    && user.value.saltB64.Some? && user.value.saltB64.value != ""
    && user.value.pwHashB64.Some? && user.value.pwHashB64.value != ""
    && sec.verify(password, user.value.saltB64.value, user.value.pwHashB64.value)
  }

  /** With sound cryptography, whoever registered with a password can log in with it. */
  lemma RegisteredCanLogin(sec: Security, userId: string, password: string, saltB64: string)
    requires Sound(sec) && saltB64 != ""
    ensures LoginAccepts(sec, Some(LocalRecord(sec, userId, password, saltB64)), password)
  {
  }

  /** A Google user has no password, so `login` never accepts one. */
  lemma GoogleUserCannotUsePassword(sec: Security, userId: string, password: string)
    ensures !LoginAccepts(sec, Some(UserRecord(userId, "google", None, None)), password)
  {
  }

  // ---- dates and the login streak ----

  /** `_parse_date`: no date for an absent or empty text, nor for one that
    * `date.fromisoformat` rejects. A date read back is written exactly as stored. */
  function ParseDate(value: Option<string>): (r: Option<Date>)
    ensures value.None? || value.value == "" ==> r.None?
    ensures r.Some? ==> ValidDate(r.value) && value == Some(FormatIso(r.value))
  {
    if value.None? || value.value == "" then None
    else
      var d := ParseIso(value.value);
      if d.Some? then IsoCanonical(value.value); d else None
  }

  /** A date the service stored is read back as that date. */
  lemma ParseDateOfStored(d: Date)
    requires ValidDate(d)
    ensures ParseDate(Some(FormatIso(d))) == Some(d)
  {
    IsoRoundTrip(d);
  }

  /** The streak fields of a profile. */
  datatype Streak = Streak(current: int, longest: int, lastLogin: Option<string>)

  const NoStreak := Streak(0, 0, None)

  ghost function StreakOf(p: PlayerProfile): Streak
    reads p
  {
    Streak(p.currentStreak, p.longestStreak, p.lastLoginDate)
  }

  /** The streak after a login on `today`: unchanged on a second login the same
    * day; otherwise one longer after a login yesterday and restarted at one after
    * any other last login (or none), the record raised to match and today noted. */
  function Touched(s: Streak, today: Date): (r: Streak)
    requires ValidDate(today) && today != MinDate
    ensures ParseDate(r.lastLogin) == Some(today)
    ensures r.longest >= s.longest
    ensures s.longest >= s.current ==> r.longest >= r.current
  {
    var last := ParseDate(s.lastLogin);
    if last == Some(today) then s
    else
      var current := if last == PrevDay(today) then s.current + 1 else 1;
      var longest := if current > s.longest then current else s.longest;
      ParseDateOfStored(today);
      Streak(current, longest, Some(FormatIso(today)))
  }

  /** Whatever the stored streak, a login on the day it last noted changes nothing. */
  lemma TouchedSameDay(s: Streak, today: Date)
    requires ValidDate(today) && today != MinDate
    requires ParseDate(s.lastLogin) == Some(today)
    ensures Touched(s, today) == s
  {
  }

  /** Whatever the stored streak, a login the day after the one it last noted
    * adds one to it and raises the record to match. */
  lemma TouchedNextDay(s: Streak, today: Date)
    requires ValidDate(today) && today != MinDate
    requires ParseDate(s.lastLogin) == PrevDay(today)
    ensures Touched(s, today).current == s.current + 1
    ensures Touched(s, today).longest == if s.current + 1 > s.longest then s.current + 1 else s.longest
    ensures ParseDate(Touched(s, today).lastLogin) == Some(today)
  {
  }

  /** A second login on the same day changes nothing. */
  lemma TouchedTwiceIsOnce(s: Streak, today: Date)
    requires ValidDate(today) && today != MinDate
    ensures Touched(Touched(s, today), today) == Touched(s, today)
  {
    TouchedSameDay(Touched(s, today), today);
  }

  /** Logging in on consecutive days grows the streak by one. */
  lemma TouchedOnConsecutiveDays(s: Streak, today: Date)
    requires ValidDate(today) && today != MinDate && today != MaxDate
    ensures
      var first := Touched(s, today);
      var second := Touched(first, NextDay(today).value);
      && second.current == first.current + 1
      && second.longest == if first.current + 1 > first.longest then first.current + 1 else first.longest
  {
    var tomorrow := NextDay(today).value;
    NextThenPrev(today);
    TouchedNextDay(Touched(s, today), tomorrow);
  }

  /** After a gap of more than a day, or with no usable last login, the streak
    * restarts at one. */
  lemma TouchedAfterGap(s: Streak, today: Date)
    requires ValidDate(today) && today != MinDate
    requires ParseDate(s.lastLogin) != Some(today) && ParseDate(s.lastLogin) != PrevDay(today)
    ensures Touched(s, today).current == 1
    ensures Touched(s, today).longest == if s.longest < 1 then 1 else s.longest
  {
  }

  /** The profile fields a profile created at sign-in starts with, streak aside. */
  ghost predicate SignInDefaults(p: PlayerProfile, userId: string, email: string)
    reads p
  {
    && p.id == userId && p.email == Some(email) && p.language == "pt" && p.displayName == None
    && p.xp == 0 && p.level == 1 && p.progress == map[]
    && p.lessonsCompletedToday == 0 && p.lastLessonDate == None && p.stats == NoStats
  }

  // ---- the Bearer header and session lookups ----

  /** `_extract_token`: the text after the first space of a `Bearer ` header,
    * stripped; 401 without such a header or with nothing after it. */
  function ExtractToken(authorization: Option<string>): (r: Result<string>)
    ensures r.Ok? <==>
      authorization.Some? && StartsWith(authorization.value, BearerPrefix)
      && Strip(authorization.value[|BearerPrefix|..]) != ""
    ensures r.Ok? ==> r.value == Strip(authorization.value[|BearerPrefix|..])
    ensures r.Err? ==> r.error == HttpError(401, "Not authenticated")
  {
    if authorization.None? || authorization.value == "" || !StartsWith(authorization.value, BearerPrefix) then
      Err(HttpError(401, "Not authenticated"))
    else
      var header := authorization.value;
      AfterFirstPrefix(header, "Bearer", ' ');
      match AfterFirst(header, ' ')
      case None => Err(HttpError(401, "Not authenticated"))
      case Some(rest) =>
        var token := Strip(rest);
        if token == "" then Err(HttpError(401, "Not authenticated")) else Ok(token)
  }

  /** A token without surrounding whitespace survives being sent as a Bearer header. */
  lemma BearerRoundTrip(token: string)
    requires token != "" && !IsSpace(token[0]) && !IsSpace(token[|token| - 1])
    ensures ExtractToken(Some(BearerPrefix + token)) == Ok(token)
  {
    var header := BearerPrefix + token;
    assert header[..|BearerPrefix|] == BearerPrefix;
    assert header[|BearerPrefix|..] == token;
    StripStripped(token);
  }

  /** `get_authenticated_email`: the email the header's token is a session of;
    * 401 for a bad header, an unknown token or an empty email. */
  function AuthenticatedEmail(sessions: map<string, string>, authorization: Option<string>): (r: Result<string>)
    ensures r.Ok? <==>
      ExtractToken(authorization).Ok? && ExtractToken(authorization).value in sessions
      && sessions[ExtractToken(authorization).value] != ""
    ensures r.Ok? ==> r.value == sessions[ExtractToken(authorization).value]
    ensures ExtractToken(authorization).Err? ==> r == Err(HttpError(401, "Not authenticated"))
    ensures ExtractToken(authorization).Ok? && r.Err? ==> r.error == HttpError(401, "Invalid session")
  {
    match ExtractToken(authorization)
    case Err(e) => Err(e)
    case Ok(token) =>
      if token !in sessions || sessions[token] == "" then Err(HttpError(401, "Invalid session"))
      else Ok(sessions[token])
  }

  /** `_get_user_from_header`: the account behind the header's session; 401 also
    * when the session's email has no account. */
  function UserFromHeader(users: map<string, UserRecord>, sessions: map<string, string>,
                          authorization: Option<string>): (r: Result<UserOut>)
    ensures r.Ok? <==> AuthenticatedEmail(sessions, authorization).Ok? && AuthenticatedEmail(sessions, authorization).value in users
    ensures r.Ok? ==>
      var email := AuthenticatedEmail(sessions, authorization).value;
      r.value == UserOut(users[email].id, email, users[email].provider)
    ensures r.Err? ==> r.error.status == 401
  {
    match AuthenticatedEmail(sessions, authorization)
    case Err(e) => Err(e)
    case Ok(email) =>
      if email !in users then Err(HttpError(401, "Invalid session"))
      else Ok(UserOut(users[email].id, email, users[email].provider))
  }

  /** `session`: authenticated exactly when the header names a live session of a known user. */
  function SessionOf(users: map<string, UserRecord>, sessions: map<string, string>,
                     authorization: Option<string>): (r: SessionOut)
    ensures r.authenticated <==> UserFromHeader(users, sessions, authorization).Ok?
    ensures r.authenticated ==> r.user == Some(UserFromHeader(users, sessions, authorization).value)
    ensures !r.authenticated ==> r.user == None
  {
    if authorization.None? || authorization.value == "" then SessionOut(false, None)
    else match UserFromHeader(users, sessions, authorization)
      case Err(_) => SessionOut(false, None)
      case Ok(user) => SessionOut(true, Some(user))
  }

  /** A freshly issued token, presented as a Bearer header, authenticates its email. */
  lemma SignedInIsAuthenticated(sessions: map<string, string>, token: string, email: string)
    requires token != "" && !IsSpace(token[0]) && !IsSpace(token[|token| - 1]) && email != ""
    ensures AuthenticatedEmail(sessions[token := email], Some(BearerPrefix + token)) == Ok(email)
  {
    BearerRoundTrip(token);
  }

  /** Once its token is removed, a header no longer authenticates anyone. */
  lemma LoggedOutIsUnauthenticated(sessions: map<string, string>, authorization: Option<string>)
    requires ExtractToken(authorization).Ok?
    ensures AuthenticatedEmail(sessions - {ExtractToken(authorization).value}, authorization)
      == Err(HttpError(401, "Invalid session"))
  {
  }

  class AuthService {
    const store: MemoryStore
    const sec: Security

    constructor (store: MemoryStore, sec: Security)
      ensures this.store == store && this.sec == sec
    {
      this.store := store;
      this.sec := sec;
    }

    /** The streak of the profile of `userId`, or the streak of a profile yet to be created. */
    ghost function StreakAt(userId: string): Streak
      reads store, store.profiles.Values
    {
      if userId in store.profiles then StreakOf(store.profiles[userId]) else NoStreak
    }

    /** The profile of the account registered under `email`, if any. */
    function AccountFrame(email: string): set<PlayerProfile>
      reads store
    {
      if email in store.users then store.ProfileFrame(store.users[email].id) else {}
    }

    /** The profile a Google login for `idToken` may touch: that of the existing
      * account, or that of the account it would create under `newUserId`. */
    function GoogleFrame(idToken: string, newUserId: string): set<PlayerProfile>
      reads store
    {
      match sec.decodeEmail(idToken)
      case None => {}
      case Some(email) => AccountFrame(email) + store.ProfileFrame(newUserId)
    }

    /** `_ensure_profile`: the existing profile of `userId`, untouched, or a new
      * one with defaults and language "pt". A second call finds the first's profile. */
    method EnsureProfile(email: string, userId: string) returns (profile: PlayerProfile)
      requires store.Valid()
      modifies store`profiles
      ensures store.Valid()
      ensures store.profiles == old(store.profiles)[userId := profile]
      ensures old(userId in store.profiles) ==> profile == old(store.profiles[userId])
      ensures old(userId !in store.profiles) ==>
        fresh(profile) && SignInDefaults(profile, userId, email) && StreakOf(profile) == NoStreak
    {
      var found := store.GetProfile(userId);
      if found.Some? {
        return found.value;
      }
      profile := new PlayerProfile.WithDefaults(userId, Some(email), "pt");
      store.SetProfile(userId, profile);
    }

    /** `_touch_login` on `today`, the clock's date. */
    method TouchLogin(profile: PlayerProfile, today: Date)
      requires ValidDate(today) && today != MinDate
      modifies profile`currentStreak, profile`longestStreak, profile`lastLoginDate
      ensures StreakOf(profile) == Touched(old(StreakOf(profile)), today)
    {
      var last := ParseDate(profile.lastLoginDate);
      if last == Some(today) {
        return;
      }
      var yesterday := PrevDay(today).value;
      if last == Some(yesterday) {
        profile.currentStreak := profile.currentStreak + 1;
      } else {
        profile.currentStreak := 1;
      }
      if profile.currentStreak > profile.longestStreak {
        profile.longestStreak := profile.currentStreak;
      }
      profile.lastLoginDate := Some(FormatIso(today));
    }

    /** The steps every successful login shares: ensure the profile, touch the
      * streak and map the new session `token` to `email`. */
    method SignIn(email: string, userId: string, today: Date, token: string) returns (profile: PlayerProfile)
      requires store.Valid() && ValidDate(today) && today != MinDate
      modifies store`profiles, store`sessions
      modifies store.ProfileFrame(userId)`currentStreak, store.ProfileFrame(userId)`longestStreak
      modifies store.ProfileFrame(userId)`lastLoginDate
      ensures store.Valid()
      ensures store.sessions == old(store.sessions)[token := email]
      ensures store.profiles == old(store.profiles)[userId := profile]
      ensures old(userId in store.profiles) ==> profile == old(store.profiles[userId])
      ensures old(userId !in store.profiles) ==> fresh(profile) && SignInDefaults(profile, userId, email)
      ensures StreakOf(profile) == Touched(old(StreakAt(userId)), today)
    {
      profile := EnsureTouched(email, userId, today);
      store.CreateSession(token, email);
    }

    /** `_ensure_profile` followed by `_touch_login`. */
    method EnsureTouched(email: string, userId: string, today: Date) returns (profile: PlayerProfile)
      requires store.Valid() && ValidDate(today) && today != MinDate
      modifies store`profiles
      modifies store.ProfileFrame(userId)`currentStreak, store.ProfileFrame(userId)`longestStreak
      modifies store.ProfileFrame(userId)`lastLoginDate
      ensures store.Valid()
      ensures store.profiles == old(store.profiles)[userId := profile]
      ensures old(userId in store.profiles) ==> profile == old(store.profiles[userId])
      ensures old(userId !in store.profiles) ==> fresh(profile) && SignInDefaults(profile, userId, email)
      ensures StreakOf(profile) == Touched(old(StreakAt(userId)), today)
    {
      ghost var before := StreakAt(userId);
      profile := EnsureProfile(email, userId);
      assert StreakOf(profile) == before;
      TouchLogin(profile, today);
    }

    /** `register`: 409 for a known email, with nothing changed; otherwise a
      * `local` account with the salt and hash, then a sign-in. `userId`, `saltB64`,
      * `today` and `token` stand for uuid4, the salt generator, the clock and the
      * session token generator. */
    method Register(email: string, password: string, userId: string, saltB64: string, today: Date, token: string)
      returns (r: Result<AuthOut>)
      requires store.Valid() && ValidDate(today) && today != MinDate
      modifies store`users, store`profiles, store`sessions
      modifies store.ProfileFrame(userId)`currentStreak, store.ProfileFrame(userId)`longestStreak
      modifies store.ProfileFrame(userId)`lastLoginDate
      ensures store.Valid()
      ensures old(email in store.users) ==>
        && r == Err(HttpError(409, "Email already registered"))
        && store.users == old(store.users) && store.profiles == old(store.profiles)
        && store.sessions == old(store.sessions)
        && unchanged(store.ProfileFrame(userId))
      ensures old(email !in store.users) ==>
        && store.users == old(store.users)[email := LocalRecord(sec, userId, password, saltB64)]
        && store.sessions == old(store.sessions)[token := email]
        && userId in store.profiles
        && store.profiles == old(store.profiles)[userId := store.profiles[userId]]
        && (old(userId in store.profiles) ==> store.profiles[userId] == old(store.profiles[userId]))
        && (old(userId !in store.profiles) ==>
              fresh(store.profiles[userId]) && SignInDefaults(store.profiles[userId], userId, email))
        && StreakOf(store.profiles[userId]) == Touched(old(StreakAt(userId)), today)
        && r == Ok(AuthOut(token, "bearer", UserOut(userId, email, "local")))
    {
      if store.GetUser(email).Some? {
        return Err(HttpError(409, "Email already registered"));
      }
      var record := UserRecord(userId, "local", Some(saltB64), Some(sec.hashB64(password, saltB64)));
      store.SetUser(email, record);
      var profile := SignIn(email, record.id, today, token);
      r := Ok(AuthOut(token, "bearer", UserOut(record.id, email, record.provider)));
    }

    /** `login`: 401 unless the account is a `local` one whose password verifies,
      * and then nothing changes; otherwise a sign-in. */
    method Login(email: string, password: string, today: Date, token: string) returns (r: Result<AuthOut>)
      requires store.Valid() && ValidDate(today) && today != MinDate
      modifies store`profiles, store`sessions
      modifies AccountFrame(email)`currentStreak, AccountFrame(email)`longestStreak
      modifies AccountFrame(email)`lastLoginDate
      ensures store.Valid()
      ensures r.Ok? <==> LoginAccepts(sec, store.GetUser(email), password)
      ensures r.Err? ==>
        && r.error == HttpError(401, "Invalid credentials")
        && store.profiles == old(store.profiles) && store.sessions == old(store.sessions)
        && unchanged(AccountFrame(email))
      ensures r.Ok? ==>
        var user := store.users[email];
        && store.sessions == old(store.sessions)[token := email]
        && user.id in store.profiles
        && store.profiles == old(store.profiles)[user.id := store.profiles[user.id]]
        && (old(user.id in store.profiles) ==> store.profiles[user.id] == old(store.profiles[user.id]))
        && (old(user.id !in store.profiles) ==>
              fresh(store.profiles[user.id]) && SignInDefaults(store.profiles[user.id], user.id, email))
        && StreakOf(store.profiles[user.id]) == Touched(old(StreakAt(user.id)), today)
        && r.value == AuthOut(token, "bearer", UserOut(user.id, email, user.provider))
    {
      var found := store.GetUser(email);
      if found.None? || found.value.provider != "local" {
        return Err(HttpError(401, "Invalid credentials"));
      }
      var user := found.value;
      if user.saltB64.None? || user.saltB64.value == "" || user.pwHashB64.None? || user.pwHashB64.value == "" {
        return Err(HttpError(401, "Invalid credentials"));
      }
      if !sec.verify(password, user.saltB64.value, user.pwHashB64.value) {
        return Err(HttpError(401, "Invalid credentials"));
      }
      var profile := SignIn(email, user.id, today, token);
      r := Ok(AuthOut(token, "bearer", UserOut(user.id, email, user.provider)));
    }

    /** `login_google`: 400 for a token without an email claim, with nothing
      * changed; otherwise the account of that email, created as a `google` one
      * under `newUserId` when there is none, then a sign-in. */
    method LoginGoogle(idToken: string, newUserId: string, today: Date, token: string) returns (r: Result<AuthOut>)
      requires store.Valid() && ValidDate(today) && today != MinDate
      modifies store`users, store`profiles, store`sessions
      modifies GoogleFrame(idToken, newUserId)`currentStreak, GoogleFrame(idToken, newUserId)`longestStreak
      modifies GoogleFrame(idToken, newUserId)`lastLoginDate
      ensures store.Valid()
      ensures
        var claim := sec.decodeEmail(idToken);
        claim.None? || claim.value == "" ==>
          && r == Err(HttpError(400, "Invalid id_token"))
          && store.users == old(store.users) && store.profiles == old(store.profiles)
          && store.sessions == old(store.sessions)
      ensures
        var claim := sec.decodeEmail(idToken);
        claim.Some? && claim.value != "" ==>
          var email := claim.value;
          && store.users == (if old(email in store.users) then old(store.users)
                             else old(store.users)[email := UserRecord(newUserId, "google", None, None)])
          && var user := store.users[email];
          && store.sessions == old(store.sessions)[token := email]
          && user.id in store.profiles
          && store.profiles == old(store.profiles)[user.id := store.profiles[user.id]]
          && (old(user.id in store.profiles) ==> store.profiles[user.id] == old(store.profiles[user.id]))
          && (old(user.id !in store.profiles) ==>
                fresh(store.profiles[user.id]) && SignInDefaults(store.profiles[user.id], user.id, email))
          && StreakOf(store.profiles[user.id]) == Touched(old(StreakAt(user.id)), today)
          && r == Ok(AuthOut(token, "bearer", UserOut(user.id, email, user.provider)))
    {
      var claim := sec.decodeEmail(idToken);
      if claim.None? || claim.value == "" {
        return Err(HttpError(400, "Invalid id_token"));
      }
      var email := claim.value;
      var user := GoogleAccount(email, newUserId);
      var profile := SignIn(email, user.id, today, token);
      r := Ok(AuthOut(token, "bearer", UserOut(user.id, email, user.provider)));
    }

    /** The account `login_google` signs in: the one registered under `email`, or
      * a new `google` one under `newUserId`. */
    method GoogleAccount(email: string, newUserId: string) returns (user: UserRecord)
      requires store.Valid()
      modifies store`users
      ensures store.Valid()
      ensures store.users == (if old(email in store.users) then old(store.users)
                              else old(store.users)[email := UserRecord(newUserId, "google", None, None)])
      ensures user == store.users[email]
    {
      var found := store.GetUser(email);
      if found.None? {
        user := UserRecord(newUserId, "google", None, None);
        store.SetUser(email, user);
      } else {
        user := found.value;
      }
    }

    /** `logout`: the header must name a live session of a known user (else the
      * same 401 and nothing changes); then exactly that token is removed. */
    method Logout(authorization: Option<string>) returns (r: Result<MessageOut>)
      modifies store`sessions
      ensures
        var who := UserFromHeader(store.users, old(store.sessions), authorization);
        && (r.Ok? <==> who.Ok?)
        && (who.Err? ==> r == Err(who.error) && store.sessions == old(store.sessions))
        && (who.Ok? ==>
              && store.sessions == old(store.sessions) - {ExtractToken(authorization).value}
              && r == Ok(MessageOut("Logged out " + who.value.email)))
    {
      var who := UserFromHeader(store.users, store.sessions, authorization);
      if who.Err? {
        return Err(who.error);
      }
      var token := ExtractToken(authorization).value;
      store.DeleteSession(token);
      r := Ok(MessageOut("Logged out " + who.value.email));
    }

    /** `reset_password`: a known email gets `resetToken` as its only reset token;
      * the reply is the same whether or not the email is known. */
    method ResetPassword(email: string, resetToken: string) returns (r: MessageOut)
      modifies store`resetTokens
      ensures r == MessageOut(ResetMessage)
      ensures old(email in store.users) ==> store.resetTokens == old(store.resetTokens)[email := resetToken]
      ensures old(email !in store.users) ==> store.resetTokens == old(store.resetTokens)
    {
      if store.GetUser(email).Some? {
        store.SetResetToken(email, resetToken);
      }
      r := MessageOut(ResetMessage);
    }
  }
}

=== FILE: dates.dfy ===
/** Calendar dates as `datetime.date` holds them, the day before and after a date,
  * and the ISO text form `YYYY-MM-DD` that `isoformat()` writes and
  * `date.fromisoformat` reads. */
module Dates {
  import opened Wrappers

  datatype Date = Date(year: int, month: int, day: int)

  predicate IsLeapYear(y: int)
  {
    y % 4 == 0 && (y % 100 != 0 || y % 400 == 0)
  }

  function DaysInMonth(y: int, m: int): (r: int)
    requires 1 <= m <= 12
    ensures 28 <= r <= 31
    ensures r == 29 <==> m == 2 && IsLeapYear(y)
  {
    if m == 2 then (if IsLeapYear(y) then 29 else 28)
    else if m == 4 || m == 6 || m == 9 || m == 11 then 30
    else 31
  }

  /** The dates `datetime.date` can hold: years 1 to 9999 of the proleptic Gregorian calendar. */
  predicate ValidDate(d: Date)
  {
    1 <= d.year <= 9999 && 1 <= d.month <= 12 && 1 <= d.day <= DaysInMonth(d.year, d.month)
  }

  const MinDate := Date(1, 1, 1)
  const MaxDate := Date(9999, 12, 31)

  /** `d + timedelta(days=1)`; None past the last representable date. */
  function NextDay(d: Date): (r: Option<Date>)
    requires ValidDate(d)
    ensures r.None? <==> d == MaxDate
    ensures r.Some? ==> ValidDate(r.value)
  {
    if d.day < DaysInMonth(d.year, d.month) then Some(Date(d.year, d.month, d.day + 1))
    else if d.month < 12 then Some(Date(d.year, d.month + 1, 1))
    else if d.year < 9999 then Some(Date(d.year + 1, 1, 1))
    else None
  }

  /** `d - timedelta(days=1)`; None before the first representable date. The day
    * before is exactly the day whose next day is `d`. */
  function PrevDay(d: Date): (r: Option<Date>)
    requires ValidDate(d)
    ensures r.None? <==> d == MinDate
    ensures r.Some? ==> ValidDate(r.value) && NextDay(r.value) == Some(d)
  {
    if d.day > 1 then Some(Date(d.year, d.month, d.day - 1))
    else if d.month > 1 then Some(Date(d.year, d.month - 1, DaysInMonth(d.year, d.month - 1)))
    else if d.year > 1 then Some(Date(d.year - 1, 12, 31))
    else None
  }

  function YearLength(y: int): int
  {
    if IsLeapYear(y) then 366 else 365
  }

  /** The days of the years before year `y`. */
  function DaysBeforeYear(y: int): (r: int)
    requires y >= 1
    ensures r >= 0
  {
    if y == 1 then 0 else DaysBeforeYear(y - 1) + YearLength(y - 1)
  }

  /** The days of the months of year `y` before month `m`. */
  function DaysBeforeMonth(y: int, m: int): (r: int)
    requires 1 <= m <= 12
    ensures r >= 0
  {
    if m == 1 then 0 else DaysBeforeMonth(y, m - 1) + DaysInMonth(y, m - 1)
  }

  /** `date.toordinal()`: the day number of `d`, 0001-01-01 being day 1. */
  function Ordinal(d: Date): (r: int)
    requires ValidDate(d)
    ensures r >= 1
    ensures d == MinDate ==> r == 1
  {
    DaysBeforeYear(d.year) + DaysBeforeMonth(d.year, d.month) + d.day
  }

  /** The twelve months make up the year. */
  lemma MonthsFillYear(y: int)
    ensures DaysBeforeMonth(y, 12) + DaysInMonth(y, 12) == YearLength(y)
  {
    var feb := DaysInMonth(y, 2);
    assert DaysBeforeMonth(y, 2) == 31;
    assert DaysBeforeMonth(y, 3) == 31 + feb;
    assert DaysBeforeMonth(y, 4) == 62 + feb;
    assert DaysBeforeMonth(y, 5) == 92 + feb;
    assert DaysBeforeMonth(y, 6) == 123 + feb;
    assert DaysBeforeMonth(y, 7) == 153 + feb;
    assert DaysBeforeMonth(y, 8) == 184 + feb;
    assert DaysBeforeMonth(y, 9) == 215 + feb;
    assert DaysBeforeMonth(y, 10) == 245 + feb;
    assert DaysBeforeMonth(y, 11) == 276 + feb;
    assert DaysBeforeMonth(y, 12) == 306 + feb;
  }

  /** The next day is the day numbered one more. */
  lemma NextDayOrdinal(d: Date)
    requires ValidDate(d) && d != MaxDate
    ensures Ordinal(NextDay(d).value) == Ordinal(d) + 1
  {
    if d.day == DaysInMonth(d.year, d.month) && d.month == 12 {
      MonthsFillYear(d.year);
    }
  }

  /** Going forward one day and back again returns to the same date. */
  lemma NextThenPrev(d: Date)
    requires ValidDate(d) && d != MaxDate
    ensures PrevDay(NextDay(d).value) == Some(d)
  {
  }

  predicate IsDigit(c: char)
  {
    '0' <= c <= '9'
  }

  predicate AllDigits(s: string)
  {
    forall i :: 0 <= i < |s| ==> IsDigit(s[i])
  }

  function DigitChar(n: int): (c: char)
    requires 0 <= n < 10
    ensures IsDigit(c)
  {
    ('0' as int + n) as char
  }

  function DigitValue(c: char): (n: int)
    requires IsDigit(c)
    ensures 0 <= n < 10 && DigitChar(n) == c
  {
    c as int - '0' as int
  }

  function Pow10(w: nat): (r: nat)
    ensures r >= 1
  {
    if w == 0 then 1 else 10 * Pow10(w - 1)
  }

  /** `n` written with exactly `w` decimal digits, zero-padded on the left
    * (the `%04d` / `%02d` fields of `isoformat()`). */
  function Digits(n: nat, w: nat): (r: string)
    ensures |r| == w && AllDigits(r)
  {
    if w == 0 then [] else Digits(n / 10, w - 1) + [DigitChar(n % 10)]
  }

  /** The number a string of decimal digits denotes. */
  function DigitsValue(s: string): (r: nat)
    requires AllDigits(s)
    ensures r < Pow10(|s|)
  {
    if s == [] then 0 else DigitsValue(s[..|s| - 1]) * 10 + DigitValue(s[|s| - 1])
  }

  /** Reading back a padded number gives the number, when it fits the width. */
  lemma {:induction false} DigitsValueOfDigits(n: nat, w: nat)
    requires n < Pow10(w)
    ensures DigitsValue(Digits(n, w)) == n
  {
    if w > 0 {
      var s := Digits(n, w);
      assert s[..|s| - 1] == Digits(n / 10, w - 1);
      DigitsValueOfDigits(n / 10, w - 1);
    }
  }

  /** Writing out the value of a digit string with its own width gives the string back. */
  lemma {:induction false} DigitsOfDigitsValue(s: string)
    requires AllDigits(s)
    ensures Digits(DigitsValue(s), |s|) == s
  {
    if s != [] {
      var init, last := s[..|s| - 1], s[|s| - 1];
      DigitsOfDigitsValue(init);
      var a, b := DigitsValue(init), DigitValue(last);
      ShiftDigit(a, b);
      assert Digits(DigitsValue(s), |s|) == Digits(a, |init|) + [DigitChar(b)];
      assert s == init + [last];
    }
  }

  lemma ShiftDigit(a: nat, b: int)
    requires 0 <= b < 10
    ensures (a * 10 + b) / 10 == a && (a * 10 + b) % 10 == b
  {
  }

  /** `d.isoformat()`. */
  function FormatIso(d: Date): (r: string)
    requires ValidDate(d)
    ensures |r| == 10 && r[4] == '-' && r[7] == '-'
  {
    Digits(d.year, 4) + "-" + Digits(d.month, 2) + "-" + Digits(d.day, 2)
  }

  /** `date.fromisoformat(s)` for the extended calendar form `YYYY-MM-DD`;
    * None where Python raises ValueError. */
  function ParseIso(s: string): (r: Option<Date>)
    ensures r.Some? ==> ValidDate(r.value)
  {
    if |s| == 10 && s[4] == '-' && s[7] == '-'
       && AllDigits(s[..4]) && AllDigits(s[5..7]) && AllDigits(s[8..])
    then
      var d := Date(DigitsValue(s[..4]), DigitsValue(s[5..7]), DigitsValue(s[8..]));
      if ValidDate(d) then Some(d) else None
    else None
  }

  /** Every date survives a write and read in ISO form. */
  lemma IsoRoundTrip(d: Date)
    requires ValidDate(d)
    ensures ParseIso(FormatIso(d)) == Some(d)
  {
    var s := FormatIso(d);
    assert s[..4] == Digits(d.year, 4);
    assert s[5..7] == Digits(d.month, 2);
    assert s[8..] == Digits(d.day, 2);
    DigitsValueOfDigits(d.year, 4);
    DigitsValueOfDigits(d.month, 2);
    DigitsValueOfDigits(d.day, 2);
  }

  /** A text `date.fromisoformat` accepts is the `isoformat()` of the date it reads. */
  lemma IsoCanonical(s: string)
    requires ParseIso(s).Some?
    ensures FormatIso(ParseIso(s).value) == s
  {
    DigitsOfDigitsValue(s[..4]);
    DigitsOfDigitsValue(s[5..7]);
    DigitsOfDigitsValue(s[8..]);
    assert s == s[..4] + "-" + s[5..7] + "-" + s[8..];
  }
}

=== FILE: game_service.dfy ===
/** The game-session state machine: a session is started with a fixed set of
  * questions, answered (and re-answered) while active, and finished exactly once,
  * which pays out xp, updates the player's statistics and writes a ranking entry. */
module Game {
  import opened Wrappers
  import opened Text
  import opened Memory

  /** A question as shown to the player: never with its answer. */
  datatype QuestionOut = QuestionOut(id: string, level: int, prompt: string, choices: seq<string>)

  datatype GameStartOut = GameStartOut(sessionId: string, level: int, timeLimitSeconds: int, questions: seq<QuestionOut>)

  datatype GameAnswerOut = GameAnswerOut(correct: bool, correctAnswer: Option<string>, currentCorrect: int)

  datatype GameFinishOut = GameFinishOut(
    sessionId: string, userId: string, correctAnswers: int, totalQuestions: int,
    xpEarned: int, totalXp: int, level: int)

  /** Seconds allowed for a session at `level`: a minute at level 0 and a
    * quarter of a minute more for each level above. */
  function TimeLimit(level: int): (r: int)
    ensures r == 60 + 15 * level
    ensures level >= 0 ==> r >= 60
  {
    60 + level * 15
  }

  /** The public form of a question: everything but its answer. */
  function ToOut(q: QuestionRecord): (r: QuestionOut)
    ensures r.id == q.id && r.level == q.level && r.prompt == q.prompt && r.choices == q.choices
  {
    QuestionOut(q.id, q.level, q.prompt, q.choices)
  }

  /** The ids of the bank's questions at `level`. */
  function AtLevel(bank: map<string, QuestionRecord>, level: int): set<string>
  {
    set k | k in bank && bank[k].level == level
  }

  /** `ids` is a valid draw of `count` questions at `level` from `bank`: distinct
    * questions of that level, all of them when `count` covers them, else exactly `count`. */
  predicate IsDraw(ids: seq<string>, bank: map<string, QuestionRecord>, level: int, count: int)
  {
    && Distinct(ids)
    && (forall i :: 0 <= i < |ids| ==> ids[i] in AtLevel(bank, level))
    && (count >= |AtLevel(bank, level)| ==> forall k :: k in AtLevel(bank, level) ==> k in ids)
    && (count < |AtLevel(bank, level)| ==> |ids| == count)
  }

  /** What a session shows of the questions `ids`: everything but the answers. */
  function QuestionsOut(ids: seq<string>, bank: map<string, QuestionRecord>): (r: seq<QuestionOut>)
    requires forall i :: 0 <= i < |ids| ==> ids[i] in bank
    ensures |r| == |ids|
    ensures forall i :: 0 <= i < |ids| ==> r[i].prompt == bank[ids[i]].prompt && r[i].choices == bank[ids[i]].choices
  {
    seq(|ids|, i requires 0 <= i < |ids| => ToOut(bank[ids[i]]))
  }

  /** A complete, repeat-free listing of the questions at `level` has one entry per such question. */
  lemma LevelListingSize(qs: seq<QuestionRecord>, bank: map<string, QuestionRecord>, level: int)
    requires Distinct(QuestionIds(qs))
    requires forall i :: 0 <= i < |qs| ==> qs[i].id in bank && bank[qs[i].id].level == level
    requires forall k :: k in bank && bank[k].level == level ==> k in QuestionIds(qs)
    ensures |AtLevel(bank, level)| == |qs|
  {
    var ids := QuestionIds(qs);
    assert (set x | x in ids) == AtLevel(bank, level);
    DistinctCardinality(ids);
  }

  /** Such a listing, cut down by `Select`, is a draw, and its questions are the bank's own. */
  lemma SelectionIsDraw(qs: seq<QuestionRecord>, selected: seq<QuestionRecord>,
                        bank: map<string, QuestionRecord>, level: int, count: int)
    requires Distinct(QuestionIds(qs))
    requires forall i :: 0 <= i < |qs| ==> qs[i].id in bank && bank[qs[i].id] == qs[i] && qs[i].level == level
    requires forall k :: k in bank && bank[k].level == level ==> k in QuestionIds(qs)
    requires Distinct(QuestionIds(selected))
    requires forall i :: 0 <= i < |selected| ==> selected[i] in qs
    requires count >= |qs| ==> selected == qs
    requires 0 <= count < |qs| ==> |selected| == count
    requires count > 0
    ensures IsDraw(QuestionIds(selected), bank, level, count)
    ensures forall i :: 0 <= i < |selected| ==> selected[i].id in bank && bank[selected[i].id] == selected[i]
  {
    LevelListingSize(qs, bank, level);
  }

  /** Questions whose answers are not stored do not count. */
  lemma {:induction false} CountWithoutAnswers(ids: seq<string>, bank: map<string, QuestionRecord>)
    ensures CountCorrect(ids, map[], bank) == 0
  {
    if ids != [] { CountWithoutAnswers(ids[1..], bank); }
  }

  /** Storing an answer for a question outside `ids` leaves their count alone. */
  lemma {:induction false} CountIgnoresOthers(ids: seq<string>, answers: map<string, string>,
                                                 bank: map<string, QuestionRecord>, qid: string, a: string)
    requires qid !in ids
    ensures CountCorrect(ids, answers[qid := a], bank) == CountCorrect(ids, answers, bank)
  {
    if ids != [] { CountIgnoresOthers(ids[1..], answers, bank, qid, a); }
  }

  /** Storing answer `a` for one question of the session moves the count by the change
    * in that question's correctness: +1 for wrong or absent to right, -1 for right to
    * wrong, 0 otherwise. This is the flip correction `answer` performs. */
  lemma {:induction false} CountAfterAnswer(ids: seq<string>, answers: map<string, string>,
                                               bank: map<string, QuestionRecord>, qid: string, a: string)
    requires Distinct(ids) && qid in ids && qid in bank
    ensures CountCorrect(ids, answers[qid := a], bank)
         == CountCorrect(ids, answers, bank)
            + (if Normalize(a) == Normalize(bank[qid].answer) then 1 else 0)
            - (if AnsweredCorrectly(qid, answers, bank) then 1 else 0)
  {
    if ids[0] == qid {
      assert qid !in ids[1..] by {
        forall i | 0 <= i < |ids[1..]| ensures ids[1..][i] != qid { assert ids[0] != ids[i + 1]; }
      }
      CountIgnoresOthers(ids[1..], answers, bank, qid, a);
    } else {
      assert qid in ids[1..];
      CountAfterAnswer(ids[1..], answers, bank, qid, a);
    }
  }

  /** The count depends only on which stored answers are correct. */
  lemma {:induction false} CountByCorrectness(ids: seq<string>, a1: map<string, string>, a2: map<string, string>,
                                                 bank: map<string, QuestionRecord>)
    requires forall i :: 0 <= i < |ids| ==> AnsweredCorrectly(ids[i], a1, bank) == AnsweredCorrectly(ids[i], a2, bank)
    ensures CountCorrect(ids, a1, bank) == CountCorrect(ids, a2, bank)
  {
    if ids != [] {
      assert AnsweredCorrectly(ids[0], a1, bank) == AnsweredCorrectly(ids[0], a2, bank);
      CountByCorrectness(ids[1..], a1, a2, bank);
    }
  }

  /** Resubmitting an answer that is right (or wrong) exactly when the stored one is,
    * in particular resubmitting the same answer, leaves the count unchanged; so a
    * right, wrong, right sequence ends where the first right answer left it. */
  lemma ResubmissionKeepsCount(ids: seq<string>, answers: map<string, string>,
                               bank: map<string, QuestionRecord>, qid: string, a: string, b: string)
    requires qid in bank
    requires (Normalize(a) == Normalize(bank[qid].answer)) == (Normalize(b) == Normalize(bank[qid].answer))
    ensures CountCorrect(ids, answers[qid := a][qid := b], bank) == CountCorrect(ids, answers[qid := a], bank)
  {
    var a1, a2 := answers[qid := a], answers[qid := a][qid := b];
    forall i | 0 <= i < |ids| ensures AnsweredCorrectly(ids[i], a1, bank) == AnsweredCorrectly(ids[i], a2, bank) {
    }
    CountByCorrectness(ids, a1, a2, bank);
  }

  /** `random.sample(qs, k)`: `k` different questions of `qs`, chosen in no fixed way. */
  method Sample(qs: seq<QuestionRecord>, k: nat) returns (picked: seq<QuestionRecord>)
    requires k <= |qs| && Distinct(QuestionIds(qs))
    ensures |picked| == k && Distinct(QuestionIds(picked))
    ensures forall i :: 0 <= i < k ==> picked[i] in qs
  {
    picked := [];
    var rest := seq(|qs|, i => i);
    while |picked| < k
      invariant |picked| <= k
      invariant |rest| == |qs| - |picked|
      invariant Distinct(rest) && forall t :: 0 <= t < |rest| ==> 0 <= rest[t] < |qs|
      invariant Distinct(QuestionIds(picked))
      invariant forall i :: 0 <= i < |picked| ==> picked[i] in qs
      invariant forall t, i :: 0 <= t < |rest| && 0 <= i < |picked| ==> qs[rest[t]].id != picked[i].id
      decreases k - |picked|
    {
      var t :| 0 <= t < |rest|;
      var j := rest[t];
      assert forall u :: 0 <= u < |rest| && u != t ==> qs[rest[u]].id != qs[j].id by {
        forall u | 0 <= u < |rest| && u != t ensures qs[rest[u]].id != qs[j].id {
          assert rest[u] != j;
          assert QuestionIds(qs)[rest[u]] != QuestionIds(qs)[j];
        }
      }
      assert QuestionIds(picked + [qs[j]]) == QuestionIds(picked) + [qs[j].id];
      picked := picked + [qs[j]];
      rest := rest[..t] + rest[t + 1..];
    }
  }

  /** The questions a session gets out of the `qs` available: all of them when `k`
    * covers them, otherwise a sample of `k`. */
  method Select(qs: seq<QuestionRecord>, k: int) returns (selected: seq<QuestionRecord>)
    requires Distinct(QuestionIds(qs)) && k > 0
    ensures Distinct(QuestionIds(selected))
    ensures forall i :: 0 <= i < |selected| ==> selected[i] in qs
    ensures k >= |qs| ==> selected == qs
    ensures k < |qs| ==> |selected| == k
  {
    if k >= |qs| {
      selected := qs;
    } else {
      selected := Sample(qs, k);
    }
  }

  class GameService {
    const store: MemoryStore
    /** The progression curve `calculate_level`, whose definition is not part of this model. */
    const calculateLevel: int -> int

    constructor (store: MemoryStore, calculateLevel: int -> int)
      ensures this.store == store && this.calculateLevel == calculateLevel
    {
      this.store := store;
      this.calculateLevel := calculateLevel;
    }

    /** Starts a session of `userId` at `level` under the fresh id `sessionId`. */
    method Start(userId: string, level: int, questionCount: int, sessionId: string) returns (r: Result<GameStartOut>)
      requires store.Valid()
      modifies store`gameSessions
      ensures store.Valid()
      ensures questionCount <= 0 ==> r == Err(HttpError(400, "question_count must be positive"))
      ensures questionCount > 0 && userId !in store.profiles ==> r == Err(HttpError(404, "User profile not found"))
      ensures questionCount > 0 && userId in store.profiles && AtLevel(store.questions, level) == {}
              ==> r == Err(HttpError(404, "No questions for level"))
      ensures questionCount > 0 && userId in store.profiles && AtLevel(store.questions, level) != {} ==> r.Ok?
      ensures r.Err? ==> store.gameSessions == old(store.gameSessions)
      ensures r.Ok? ==>
        && questionCount > 0 && userId in store.profiles
        && sessionId in store.gameSessions
        && store.gameSessions == old(store.gameSessions)[sessionId := store.gameSessions[sessionId]]
        && var s := store.gameSessions[sessionId];
        && fresh(s) && s.id == sessionId && s.userId == userId && s.level == level
        && s.timeLimitSeconds == 60 + 15 * level
        && s.answers == map[] && s.correctCount == 0 && !s.finished
        && IsDraw(s.questionIds, store.questions, level, questionCount)
        && (forall i :: 0 <= i < |s.questionIds| ==> s.questionIds[i] in store.questions)
        && r == Ok(GameStartOut(sessionId, level, s.timeLimitSeconds, QuestionsOut(s.questionIds, store.questions)))
    {
      if questionCount <= 0 {
        return Err(HttpError(400, "question_count must be positive"));
      }
      if store.GetProfile(userId).None? {
        return Err(HttpError(404, "User profile not found"));
      }
      var questions := store.ListQuestionsByLevel(level);
      LevelListingSize(questions, store.questions, level);
      if |questions| == 0 {
        return Err(HttpError(404, "No questions for level"));
      }
      var selected := Select(questions, questionCount);
      SelectionIsDraw(questions, selected, store.questions, level, questionCount);
      var out := Open(userId, level, selected, sessionId);
      r := Ok(out);
    }

    /** The second half of `Start`: stores a new session over `selected` and shows its questions. */
    method Open(userId: string, level: int, selected: seq<QuestionRecord>, sessionId: string) returns (out: GameStartOut)
      requires store.Valid() && Distinct(QuestionIds(selected))
      requires forall i :: 0 <= i < |selected| ==> selected[i].id in store.questions && store.questions[selected[i].id] == selected[i]
      modifies store`gameSessions
      ensures store.Valid()
      ensures sessionId in store.gameSessions
      ensures store.gameSessions == old(store.gameSessions)[sessionId := store.gameSessions[sessionId]]
      ensures var s := store.gameSessions[sessionId];
        && fresh(s) && s.id == sessionId && s.userId == userId && s.level == level
        && s.questionIds == QuestionIds(selected) && s.timeLimitSeconds == 60 + 15 * level
        && s.answers == map[] && s.correctCount == 0 && !s.finished
        && out == GameStartOut(sessionId, level, s.timeLimitSeconds, QuestionsOut(s.questionIds, store.questions))
    {
      var ids := QuestionIds(selected);
      var session := new GameSessionRecord(sessionId, userId, level, ids, TimeLimit(level));
      CountWithoutAnswers(ids, store.questions);
      store.CreateGameSession(session);
      assert store.gameSessions[sessionId] == session;
      var outs := seq(|selected|, i requires 0 <= i < |selected| => ToOut(selected[i]));
      assert outs == QuestionsOut(ids, store.questions);
      out := GameStartOut(sessionId, level, session.timeLimitSeconds, outs);
    }

    /** Records `answer` for `questionId` in session `sessionId`, replacing any earlier one. */
    method Answer(sessionId: string, questionId: string, answer: string) returns (r: Result<GameAnswerOut>)
      requires store.Valid()
      modifies store.SessionFrame(sessionId)`answers, store.SessionFrame(sessionId)`correctCount
      ensures store.Valid()
      ensures sessionId !in store.gameSessions ==> r == Err(HttpError(404, "Session not found"))
      ensures sessionId in store.gameSessions ==>
        var s := store.gameSessions[sessionId];
        && (old(s.finished) ==> r == Err(HttpError(409, "Session already finished")))
        && (!old(s.finished) && questionId !in s.questionIds ==> r == Err(HttpError(400, "Question not in session")))
        && ((!old(s.finished) && questionId in s.questionIds && questionId !in store.questions)
              ==> r == Err(HttpError(404, "Question not found")))
        && ((!old(s.finished) && questionId in s.questionIds && questionId in store.questions) ==> r.Ok?)
        && (r.Err? ==> unchanged(s))
        && (r.Ok? ==>
              && questionId in s.questionIds && questionId in store.questions && !s.finished
              && var expected := store.questions[questionId].answer;
              && var correct := Normalize(answer) == Normalize(expected);
              && s.answers == old(s.answers)[questionId := answer]
              && s.correctCount == old(s.correctCount) + (if correct then 1 else 0)
                   - (if AnsweredCorrectly(questionId, old(s.answers), store.questions) then 1 else 0)
              && s.correctCount == CountCorrect(s.questionIds, s.answers, store.questions)
              && r.value == GameAnswerOut(correct, if correct then None else Some(expected), s.correctCount))
    {
      var found := store.GetGameSession(sessionId);
      if found.None? {
        return Err(HttpError(404, "Session not found"));
      }
      var session := found.value;
      if session.finished {
        return Err(HttpError(409, "Session already finished"));
      }
      if questionId !in session.questionIds {
        return Err(HttpError(400, "Question not in session"));
      }
      var question := store.GetQuestion(questionId);
      if question.None? {
        return Err(HttpError(404, "Question not found"));
      }
      var normalized := Normalize(answer);
      var expected := Normalize(question.value.answer);
      var previous := if questionId in session.answers then Some(session.answers[questionId]) else None;
      var previousCorrect := false;
      if previous.Some? {
        previousCorrect := Normalize(previous.value) == expected;
      }
      var correct := normalized == expected;
      assert previousCorrect == AnsweredCorrectly(questionId, session.answers, store.questions);
      CountAfterAnswer(session.questionIds, session.answers, store.questions, questionId, answer);
      session.answers := session.answers[questionId := answer];
      if previous.None? {
        if correct {
          session.correctCount := session.correctCount + 1;
        }
      } else {
        if previousCorrect && !correct {
          session.correctCount := session.correctCount - 1;
        } else if !previousCorrect && correct {
          session.correctCount := session.correctCount + 1;
        }
      }
      assert session.Consistent(store.questions);
      r := Ok(GameAnswerOut(correct, if correct then None else Some(question.value.answer), session.correctCount));
    }

    /** The profile whose reward finishing `sessionId` pays out, if both exist. */
    function RewardFrame(sessionId: string): set<PlayerProfile>
      reads store
    {
      if sessionId in store.gameSessions then store.ProfileFrame(store.gameSessions[sessionId].userId) else {}
    }

    /** The profile updates of `finish`: the xp earned, the level it leads to
      * and one more game in the statistics. */
    method Reward(profile: PlayerProfile, xpEarned: int, totalQuestions: int, correctAnswers: int)
      modifies profile`xp, profile`level, profile`stats
      ensures profile.xp == old(profile.xp) + xpEarned
      ensures profile.level == calculateLevel(profile.xp)
      ensures profile.stats == PlayerStats(old(profile.stats.gamesPlayed) + 1,
                                           old(profile.stats.questionsAnswered) + totalQuestions,
                                           old(profile.stats.correctAnswers) + correctAnswers)
    {
      profile.xp := profile.xp + xpEarned;
      profile.level := calculateLevel(profile.xp);
      var stats := profile.stats;
      profile.stats := PlayerStats(stats.gamesPlayed + 1, stats.questionsAnswered + totalQuestions,
                                   stats.correctAnswers + correctAnswers);
    }

    /** Closes session `sessionId` and pays out its reward; `now` stamps the ranking entry. */
    method Finish(sessionId: string, now: string) returns (r: Result<GameFinishOut>)
      requires store.Valid()
      modifies store`ranking, store.SessionFrame(sessionId)`finished
      modifies RewardFrame(sessionId)`xp, RewardFrame(sessionId)`level, RewardFrame(sessionId)`stats
      ensures store.Valid()
      ensures sessionId !in store.gameSessions ==>
        r == Err(HttpError(404, "Session not found")) && store.ranking == old(store.ranking)
      ensures sessionId in store.gameSessions ==>
        var s := store.gameSessions[sessionId];
        && (old(s.finished) ==>
              && r == Err(HttpError(409, "Session already finished"))
              && unchanged(s) && store.ranking == old(store.ranking)
              && (s.userId in store.profiles ==> unchanged(store.profiles[s.userId])))
        && (!old(s.finished) ==>
              s.finished && s.answers == old(s.answers) && s.correctCount == old(s.correctCount))
        && (!old(s.finished) && s.userId !in store.profiles ==>
              r == Err(HttpError(404, "User profile not found")) && store.ranking == old(store.ranking))
        && (!old(s.finished) && s.userId in store.profiles ==>
              var p: PlayerProfile := store.profiles[s.userId];
              var correctAnswers := CountCorrect(s.questionIds, s.answers, store.questions);
              var earned := 10 * correctAnswers;
              && p.xp == old(p.xp) + earned
              && p.level == calculateLevel(p.xp)
              && p.stats == PlayerStats(old(p.stats.gamesPlayed) + 1,
                                        old(p.stats.questionsAnswered) + |s.questionIds|,
                                        old(p.stats.correctAnswers) + correctAnswers)
              && unchanged(p`email, p`displayName, p`language, p`progress, p`currentStreak, p`longestStreak,
                           p`lastLoginDate, p`lessonsCompletedToday, p`lastLessonDate)
              && store.ranking == old(store.ranking)[p.id := RankingEntry(p.id, None, p.xp, p.level, now)]
              && r == Ok(GameFinishOut(sessionId, s.userId, correctAnswers, |s.questionIds|, earned, p.xp, p.level)))
    {
      var found := store.GetGameSession(sessionId);
      if found.None? {
        return Err(HttpError(404, "Session not found"));
      }
      var session := found.value;
      if session.finished {
        return Err(HttpError(409, "Session already finished"));
      }
      session.finished := true;
      var totalQuestions := |session.questionIds|;
      var correctAnswers := session.correctCount;
      var xpEarned := correctAnswers * 10;
      var found' := store.GetProfile(session.userId);
      if found'.None? {
        return Err(HttpError(404, "User profile not found"));
      }
      var profile := found'.value;
      Reward(profile, xpEarned, totalQuestions, correctAnswers);
      store.SetRankingEntry(RankingEntry(profile.id, None, profile.xp, profile.level, now));
      assert store.gameSessions[sessionId] == session && store.profiles[session.userId] == profile;
      r := Ok(GameFinishOut(session.id, session.userId, correctAnswers, totalQuestions, xpEarned, profile.xp, profile.level));
    }
  }
}

=== FILE: memory.dfy ===
/** The in-memory store every service reads and writes: users, login sessions and
  * reset tokens keyed by email or token, and the player profiles, question bank,
  * game sessions and ranking entries keyed by their ids. */
module Memory {
  import opened Wrappers
  import opened Text

  /** A credential: `local` users carry a base64 salt and password hash, `google` users neither. */
  datatype UserRecord = UserRecord(id: string, provider: string, saltB64: Option<string>, pwHashB64: Option<string>)

  /** A quiz question of the seed bank. */
  datatype QuestionRecord = QuestionRecord(id: string, level: int, prompt: string, choices: seq<string>, answer: string)

  /** A leaderboard snapshot of one player. */
  datatype RankingEntry = RankingEntry(userId: string, displayName: Option<string>, xp: int, level: int, updatedAt: string)

  /** Game counters, owned by exactly one profile and only ever replaced as a whole. */
  datatype PlayerStats = PlayerStats(gamesPlayed: int, questionsAnswered: int, correctAnswers: int)
  {
    /** Counters are never negative and never more answers right than answered. */
    predicate Valid()
    {
      0 <= gamesPlayed && 0 <= correctAnswers <= questionsAnswered
    }
  }

  const NoStats := PlayerStats(0, 0, 0)

  class PlayerProfile {
    const id: string
    var email: Option<string>
    var displayName: Option<string>
    var language: string
    var xp: int
    var level: int
    var progress: map<string, int>
    var currentStreak: int
    var longestStreak: int
    var lastLoginDate: Option<string>
    var lessonsCompletedToday: int
    var lastLessonDate: Option<string>
    var stats: PlayerStats

    /** A profile with every field given and fresh, zero statistics. */
    constructor (id: string, email: Option<string>, displayName: Option<string>, language: string,
                 xp: int, level: int, progress: map<string, int>, currentStreak: int, longestStreak: int,
                 lastLoginDate: Option<string>, lessonsCompletedToday: int, lastLessonDate: Option<string>)
      ensures this.id == id && this.email == email && this.displayName == displayName
      ensures this.language == language && this.xp == xp && this.level == level
      ensures this.progress == progress && this.currentStreak == currentStreak
      ensures this.longestStreak == longestStreak && this.lastLoginDate == lastLoginDate
      ensures this.lessonsCompletedToday == lessonsCompletedToday && this.lastLessonDate == lastLessonDate
      ensures this.stats == NoStats
    {
      this.id, this.email, this.displayName, this.language := id, email, displayName, language;
      this.xp, this.level, this.progress := xp, level, progress;
      this.currentStreak, this.longestStreak, this.lastLoginDate := currentStreak, longestStreak, lastLoginDate;
      this.lessonsCompletedToday, this.lastLessonDate := lessonsCompletedToday, lastLessonDate;
      this.stats := NoStats;
    }

    /** A profile with only id, email and language given; every other field at its default. */
    constructor WithDefaults(id: string, email: Option<string>, language: string)
      ensures this.id == id && this.email == email && this.language == language
      ensures displayName == None && xp == 0 && level == 1 && progress == map[]
      ensures currentStreak == 0 && longestStreak == 0 && lastLoginDate == None
      ensures lessonsCompletedToday == 0 && lastLessonDate == None && stats == NoStats
    {
      this.id, this.email, this.language := id, email, language;
      displayName, xp, level, progress := None, 0, 1, map[];
      currentStreak, longestStreak, lastLoginDate := 0, 0, None;
      lessonsCompletedToday, lastLessonDate, stats := 0, None, NoStats;
    }
  }

  /** `base.update(patch)` on a progress dictionary: every key of either, with the
    * patch's value where it has one and the old value elsewhere. */
  function Merge(base: map<string, int>, patch: map<string, int>): (r: map<string, int>)
    ensures r.Keys == base.Keys + patch.Keys
    ensures forall k :: k in patch ==> r[k] == patch[k]
    ensures forall k :: k in base && k !in patch ==> r[k] == base[k]
  {
    base + patch
  }

  /** Merging the same patch twice is merging it once. */
  lemma MergeIdempotent(base: map<string, int>, patch: map<string, int>)
    ensures Merge(Merge(base, patch), patch) == Merge(base, patch)
  {
  }

  /** Merging an empty patch changes nothing. */
  lemma MergeEmpty(base: map<string, int>)
    ensures Merge(base, map[]) == base
  {
  }

  predicate Distinct<T(==)>(s: seq<T>)
  {
    forall i, j :: 0 <= i < j < |s| ==> s[i] != s[j]
  }

  /** A sequence without repeats has as many distinct members as it has elements. */
  lemma {:induction false} DistinctCardinality<T>(s: seq<T>)
    requires Distinct(s)
    ensures |set x | x in s| == |s|
  {
    if s != [] {
      DistinctCardinality(s[1..]);
      assert (set x | x in s) == {s[0]} + (set x | x in s[1..]);
      assert s[0] !in s[1..];
    }
  }

  /** Whether the answer stored for `qid` matches the bank's answer once both are normalised. */
  predicate AnsweredCorrectly(qid: string, answers: map<string, string>, bank: map<string, QuestionRecord>)
  {
    qid in answers && qid in bank && Normalize(answers[qid]) == Normalize(bank[qid].answer)
  }

  /** How many of `ids` currently hold a correct stored answer. */
  function CountCorrect(ids: seq<string>, answers: map<string, string>, bank: map<string, QuestionRecord>): (n: nat)
    ensures n <= |ids|
  {
    if ids == [] then 0
    else (if AnsweredCorrectly(ids[0], answers, bank) then 1 else 0) + CountCorrect(ids[1..], answers, bank)
  }

  class GameSessionRecord {
    const id: string
    const userId: string
    const level: int
    const questionIds: seq<string>
    const timeLimitSeconds: int
    var answers: map<string, string>
    var correctCount: int
    var finished: bool

    constructor (id: string, userId: string, level: int, questionIds: seq<string>, timeLimitSeconds: int)
      ensures this.id == id && this.userId == userId && this.level == level
      ensures this.questionIds == questionIds && this.timeLimitSeconds == timeLimitSeconds
      ensures answers == map[] && correctCount == 0 && !finished
    {
      this.id, this.userId, this.level := id, userId, level;
      this.questionIds, this.timeLimitSeconds := questionIds, timeLimitSeconds;
      answers, correctCount, finished := map[], 0, false;
    }

    /** The session's questions are distinct, and the cached `correctCount` is the
      * number of them whose latest stored answer is correct. */
    ghost predicate Consistent(bank: map<string, QuestionRecord>)
      reads this`answers, this`correctCount
    {
      Distinct(questionIds) && correctCount == CountCorrect(questionIds, answers, bank)
    }
  }

  function QuestionIds(qs: seq<QuestionRecord>): (ids: seq<string>)
    ensures |ids| == |qs|
  {
    seq(|qs|, i requires 0 <= i < |qs| => qs[i].id)
  }

  function EntryIds(es: seq<RankingEntry>): (ids: seq<string>)
    ensures |ids| == |es|
  {
    seq(|es|, i requires 0 <= i < |es| => es[i].userId)
  }

  class MemoryStore {
    var users: map<string, UserRecord>
    var sessions: map<string, string>
    var resetTokens: map<string, string>
    var profiles: map<string, PlayerProfile>
    const questions: map<string, QuestionRecord>
    var gameSessions: map<string, GameSessionRecord>
    var ranking: map<string, RankingEntry>

    /** Every record sits under its own id, profile statistics are valid, and
      * every game session is consistent with the question bank. */
    ghost predicate Valid()
      reads this`profiles, this`gameSessions, this`ranking, profiles.Values`stats, gameSessions.Values`answers, gameSessions.Values`correctCount
    {
      && (forall k :: k in profiles ==> profiles[k].id == k && profiles[k].stats.Valid())
      && (forall k :: k in questions ==> questions[k].id == k)
      && (forall k :: k in gameSessions ==> gameSessions[k].id == k && gameSessions[k].Consistent(questions))
      && (forall k :: k in ranking ==> ranking[k].userId == k)
    }

    /** An empty store over a seed question bank. */
    constructor (questions: map<string, QuestionRecord>)
      requires forall k :: k in questions ==> questions[k].id == k
      ensures Valid() && this.questions == questions
      ensures users == map[] && sessions == map[] && resetTokens == map[]
      ensures profiles == map[] && gameSessions == map[] && ranking == map[]
    {
      this.questions := questions;
      users, sessions, resetTokens := map[], map[], map[];
      profiles, gameSessions, ranking := map[], map[], map[];
    }

    // ---- users, login sessions and reset tokens ----

    function GetUser(email: string): (r: Option<UserRecord>)
      reads this
      ensures r.Some? <==> email in users
      ensures r.Some? ==> r.value == users[email]
    {
      if email in users then Some(users[email]) else None
    }

    method SetUser(email: string, record: UserRecord)
      modifies this`users
      ensures users == old(users)[email := record]
      ensures GetUser(email) == Some(record)
      ensures forall e :: e != email ==> GetUser(e) == old(GetUser(e))
    {
      users := users[email := record];
    }

    method CreateSession(token: string, email: string)
      modifies this`sessions
      ensures sessions == old(sessions)[token := email]
    {
      sessions := sessions[token := email];
    }

    function GetEmailForSession(token: string): (r: Option<string>)
      reads this
      ensures r.None? <==> token !in sessions
      ensures r.Some? ==> r.value == sessions[token]
    {
      if token in sessions then Some(sessions[token]) else None
    }

    method DeleteSession(token: string)
      modifies this`sessions
      ensures sessions == old(sessions) - {token}
      ensures token !in old(sessions) ==> sessions == old(sessions)
    {
      sessions := sessions - {token};
    }

    method SetResetToken(email: string, token: string)
      modifies this`resetTokens
      ensures resetTokens == old(resetTokens)[email := token]
    {
      resetTokens := resetTokens[email := token];
    }

    // ---- profiles ----

    function GetProfile(userId: string): (r: Option<PlayerProfile>)
      reads this
      ensures r.Some? <==> userId in profiles
      ensures r.Some? ==> r.value == profiles[userId]
    {
      if userId in profiles then Some(profiles[userId]) else None
    }

    method SetProfile(userId: string, profile: PlayerProfile)
      requires Valid() && profile.id == userId && profile.stats.Valid()
      modifies this`profiles
      ensures Valid()
      ensures profiles == old(profiles)[userId := profile]
    {
      profiles := profiles[userId := profile];
    }

    /** Some profile whose email is `email`, if there is one. */
    method GetProfileByEmail(email: string) returns (r: Option<PlayerProfile>)
      requires Valid()
      ensures r.Some? ==> r.value.id in profiles && profiles[r.value.id] == r.value && r.value.email == Some(email)
      ensures r.None? ==> forall k :: k in profiles ==> profiles[k].email != Some(email)
    {
      if k :| k in profiles && profiles[k].email == Some(email) {
        r := Some(profiles[k]);
      } else {
        r := None;
      }
    }

    // ---- question bank ----

    function GetQuestion(questionId: string): (r: Option<QuestionRecord>)
      reads this
      ensures r.Some? <==> questionId in questions
      ensures r.Some? ==> r.value == questions[questionId]
    {
      if questionId in questions then Some(questions[questionId]) else None
    }

    /** Every question of `level`, each once, in the store's own (unspecified) order. */
    method ListQuestionsByLevel(level: int) returns (qs: seq<QuestionRecord>)
      requires Valid()
      ensures Distinct(QuestionIds(qs))
      ensures forall i :: 0 <= i < |qs| ==> qs[i].id in questions && questions[qs[i].id] == qs[i] && qs[i].level == level
      ensures forall k :: k in questions && questions[k].level == level ==> k in QuestionIds(qs)
    {
      qs := [];
      var rest := questions.Keys;
      while rest != {}
        invariant rest <= questions.Keys
        invariant Distinct(QuestionIds(qs))
        invariant forall i :: 0 <= i < |qs| ==>
          qs[i].id in questions && questions[qs[i].id] == qs[i] && qs[i].level == level && qs[i].id !in rest
        invariant forall k :: k in questions.Keys - rest && questions[k].level == level ==> k in QuestionIds(qs)
        decreases rest
      {
        var k :| k in rest;
        if questions[k].level == level {
          assert QuestionIds(qs + [questions[k]]) == QuestionIds(qs) + [k];
          qs := qs + [questions[k]];
        }
        rest := rest - {k};
      }
    }

    // ---- game sessions ----

    function GetGameSession(sessionId: string): (r: Option<GameSessionRecord>)
      reads this
      ensures r.Some? <==> sessionId in gameSessions
      ensures r.Some? ==> r.value == gameSessions[sessionId]
    {
      if sessionId in gameSessions then Some(gameSessions[sessionId]) else None
    }

    method CreateGameSession(session: GameSessionRecord)
      requires Valid() && session.Consistent(questions)
      modifies this`gameSessions
      ensures Valid()
      ensures gameSessions == old(gameSessions)[session.id := session]
    {
      gameSessions := gameSessions[session.id := session];
    }

    /** The objects a change to game session `sessionId` may touch. */
    function SessionFrame(sessionId: string): set<GameSessionRecord>
      reads this
    {
      if sessionId in gameSessions then {gameSessions[sessionId]} else {}
    }

    /** The objects a change to profile `userId` may touch. */
    function ProfileFrame(userId: string): set<PlayerProfile>
      reads this
    {
      if userId in profiles then {profiles[userId]} else {}
    }

    // ---- ranking ----

    function GetRankingEntry(userId: string): (r: Option<RankingEntry>)
      reads this
      ensures r.Some? <==> userId in ranking
      ensures r.Some? ==> r.value == ranking[userId]
    {
      if userId in ranking then Some(ranking[userId]) else None
    }

    /** Writes `entry` as the one entry of its user, replacing any earlier one. */
    method SetRankingEntry(entry: RankingEntry)
      requires Valid()
      modifies this`ranking
      ensures Valid()
      ensures ranking == old(ranking)[entry.userId := entry]
    {
      ranking := ranking[entry.userId := entry];
    }

    /** Every ranking entry, each once, in the store's own (unspecified) order. */
    method ListRanking() returns (es: seq<RankingEntry>)
      requires Valid()
      ensures Distinct(EntryIds(es))
      ensures forall i :: 0 <= i < |es| ==> es[i].userId in ranking && ranking[es[i].userId] == es[i]
      ensures forall k :: k in ranking ==> k in EntryIds(es)
    {
      es := [];
      var rest := ranking.Keys;
      while rest != {}
        invariant rest <= ranking.Keys
        invariant Distinct(EntryIds(es))
        invariant forall i :: 0 <= i < |es| ==>
          es[i].userId in ranking && ranking[es[i].userId] == es[i] && es[i].userId !in rest
        invariant forall k :: k in ranking.Keys - rest ==> k in EntryIds(es)
        decreases rest
      {
        var k :| k in rest;
        assert EntryIds(es + [ranking[k]]) == EntryIds(es) + [k];
        es := es + [ranking[k]];
        rest := rest - {k};
      }
    }
  }
}

=== FILE: progress_service.dfy ===
/** Lesson progress: an xp change clamped at zero, a key-wise merge of the
  * progress dictionary and a forced level recomputation. */
module Progress {
  import opened Wrappers
  import opened Memory

  datatype ProgressOut = ProgressOut(userId: string, xp: int, level: int, progress: map<string, int>)

  /** The xp after `update` applies `delta`: a zero delta is no change, any other
    * delta is added and the sum is clamped at zero. */
  function ApplyDelta(xp: int, delta: int): (r: int)
    ensures delta == 0 ==> r == xp
    ensures delta != 0 ==> r >= 0
    ensures delta != 0 && xp + delta >= 0 ==> r == xp + delta
    ensures delta != 0 && xp + delta < 0 ==> r == 0
  {
    if delta != 0 then (if xp + delta > 0 then xp + delta else 0) else xp
  }

  /** A non-negative xp stays non-negative, whatever the delta. */
  lemma ApplyDeltaKeepsNonNegative(xp: int, delta: int)
    requires xp >= 0
    ensures ApplyDelta(xp, delta) >= 0
  {
  }

  /** A gain is undone by the matching loss. */
  lemma GainThenLoss(xp: int, gain: int)
    requires xp >= 0 && gain > 0
    ensures ApplyDelta(ApplyDelta(xp, gain), -gain) == xp
  {
  }

  /** Two gains, or two losses, in a row are one change by their sum; the clamp
    * at zero makes this fail for a loss followed by a gain. */
  lemma SameSignDeltasCompose(xp: int, a: int, b: int)
    requires xp >= 0
    requires (a >= 0 && b >= 0) || (a <= 0 && b <= 0)
    ensures ApplyDelta(ApplyDelta(xp, a), b) == ApplyDelta(xp, a + b)
  {
  }

  /** A loss that overshoots zero is not undone by the matching gain: the xp
    * ends at the size of the loss, not where it started. */
  lemma LossThenGainLosesTheExcess(xp: int, loss: int)
    requires xp >= 0 && loss > xp
    ensures ApplyDelta(ApplyDelta(xp, -loss), loss) == loss
    ensures ApplyDelta(ApplyDelta(xp, -loss), loss) != xp
  {
  }

  /** The progress dictionary after `update`: a non-empty patch is merged key by
    * key; an absent or empty one leaves it untouched. */
  function MergedProgress(current: map<string, int>, patch: Option<map<string, int>>): (r: map<string, int>)
    ensures patch.None? ==> r == current
    ensures patch.Some? ==> r.Keys == current.Keys + patch.value.Keys
    ensures patch.Some? ==> forall k :: k in patch.value ==> r[k] == patch.value[k]
    ensures forall k :: k in current && (patch.None? || k !in patch.value) ==> r[k] == current[k]
  {
    if patch.Some? && patch.value != map[] then Merge(current, patch.value) else current
  }

  class ProgressService {
    const store: MemoryStore
    /** The progression curve `calculate_level`, whose definition is not part of this model. */
    const calculateLevel: int -> int

    constructor (store: MemoryStore, calculateLevel: int -> int)
      ensures this.store == store && this.calculateLevel == calculateLevel
    {
      this.store := store;
      this.calculateLevel := calculateLevel;
    }

    /** Applies `xpDelta` and the `progress` patch to the profile of `userId` and
      * recomputes its level from the new xp, discarding any level set by hand.
      * An unknown user is a 404 and, the frame being empty, changes nothing. */
    method Update(userId: string, xpDelta: int, progress: Option<map<string, int>>) returns (r: Result<ProgressOut>)
      requires store.Valid()
      modifies store.ProfileFrame(userId)`xp, store.ProfileFrame(userId)`progress, store.ProfileFrame(userId)`level
      ensures store.Valid()
      ensures userId !in store.profiles ==> r == Err(HttpError(404, "User profile not found"))
      ensures userId in store.profiles ==>
        var p: PlayerProfile := store.profiles[userId];
        && p.xp == ApplyDelta(old(p.xp), xpDelta)
        && p.progress == MergedProgress(old(p.progress), progress)
        && p.level == calculateLevel(p.xp)
        && r == Ok(ProgressOut(userId, p.xp, p.level, p.progress))
    {
      var found := store.GetProfile(userId);
      if found.None? {
        return Err(HttpError(404, "User profile not found"));
      }
      var profile := found.value;
      assert store.ProfileFrame(userId) == {profile};
      Apply(profile, xpDelta, progress);
      r := Ok(ProgressOut(profile.id, profile.xp, profile.level, profile.progress));
    }

    /** The three assignments of `update`, in the order the service makes them. */
    method Apply(profile: PlayerProfile, xpDelta: int, progress: Option<map<string, int>>)
      modifies profile`xp, profile`progress, profile`level
      ensures profile.xp == ApplyDelta(old(profile.xp), xpDelta)
      ensures profile.progress == MergedProgress(old(profile.progress), progress)
      ensures profile.level == calculateLevel(profile.xp)
    {
      if xpDelta != 0 {
        profile.xp := if profile.xp + xpDelta > 0 then profile.xp + xpDelta else 0;
      }
      if progress.Some? && progress.value != map[] {
        profile.progress := Merge(profile.progress, progress.value);
      }
      profile.level := calculateLevel(profile.xp);
    }

    /** The xp, level and progress of `userId`, or 404; nothing changes. */
    method Get(userId: string) returns (r: Result<ProgressOut>)
      requires store.Valid()
      ensures r.Ok? <==> userId in store.profiles
      ensures r.Err? ==> r.error == HttpError(404, "User profile not found")
      ensures r.Ok? ==>
        var p := store.profiles[userId];
        r.value == ProgressOut(userId, p.xp, p.level, p.progress)
    {
      var found := store.GetProfile(userId);
      if found.None? {
        return Err(HttpError(404, "User profile not found"));
      }
      var profile := found.value;
      r := Ok(ProgressOut(profile.id, profile.xp, profile.level, profile.progress));
    }
  }
}

=== FILE: ranking_service.dfy ===
/** The leaderboard: one entry per user, ordered by xp (highest first) with ties
  * broken by user id, and positions counted from 1 in that order. */
module Ranking {
  import opened Wrappers
  import opened Text
  import opened Memory

  datatype RankingEntryOut = RankingEntryOut(
    userId: string, displayName: Option<string>, xp: int, level: int, position: int, updatedAt: string)

  function WithPosition(e: RankingEntry, position: int): RankingEntryOut
  {
    RankingEntryOut(e.userId, e.displayName, e.xp, e.level, position, e.updatedAt)
  }

  /** `a` sorts before `b` under the sort key (-xp, user id). */
  predicate Ahead(a: RankingEntry, b: RankingEntry)
  {
    a.xp > b.xp || (a.xp == b.xp && LexLess(a.userId, b.userId))
  }

  lemma AheadIrreflexive(a: RankingEntry)
    ensures !Ahead(a, a)
  {
    LexLessIrreflexive(a.userId);
  }

  lemma AheadAsymmetric(a: RankingEntry, b: RankingEntry)
    ensures !(Ahead(a, b) && Ahead(b, a))
  {
    LexLessAsymmetric(a.userId, b.userId);
  }

  lemma AheadTransitive(a: RankingEntry, b: RankingEntry, c: RankingEntry)
    requires Ahead(a, b) && Ahead(b, c)
    ensures Ahead(a, c)
  {
    if a.xp == b.xp && b.xp == c.xp {
      LexLessTransitive(a.userId, b.userId, c.userId);
    }
  }

  /** Entries of different users are always ordered one way or the other: the key never ties. */
  lemma AheadTotal(a: RankingEntry, b: RankingEntry)
    requires a.userId != b.userId
    ensures Ahead(a, b) || Ahead(b, a)
  {
    LexLessTotal(a.userId, b.userId);
  }

  /** Strictly in leaderboard order. */
  predicate Sorted(es: seq<RankingEntry>)
  {
    forall i, j :: 0 <= i < j < |es| ==> Ahead(es[i], es[j])
  }

  /** `es` lists the entries of `m`, each exactly once. */
  predicate Lists(es: seq<RankingEntry>, m: map<string, RankingEntry>)
  {
    && Distinct(EntryIds(es))
    && (forall i :: 0 <= i < |es| ==> es[i].userId in m && m[es[i].userId] == es[i])
    && (forall k :: k in m ==> k in EntryIds(es))
  }

  /** Places `e` into the sorted `es`. */
  function Insert(e: RankingEntry, es: seq<RankingEntry>): (r: seq<RankingEntry>)
    requires Sorted(es) && forall i :: 0 <= i < |es| ==> es[i].userId != e.userId
    ensures Sorted(r) && multiset(r) == multiset(es) + multiset{e}
  {
    if es == [] then [e]
    else if Ahead(e, es[0]) then
      AheadOfAll(e, es);
      SortedCons(e, es);
      [e] + es
    else
      var rest := Insert(e, es[1..]);
      HeadAheadOfRest(es, e, rest);
      SortedCons(es[0], rest);
      assert es == [es[0]] + es[1..];
      [es[0]] + rest
  }

  lemma SortedCons(x: RankingEntry, es: seq<RankingEntry>)
    requires Sorted(es) && forall j :: 0 <= j < |es| ==> Ahead(x, es[j])
    ensures Sorted([x] + es)
  {
  }

  /** What sorts ahead of the head of a sorted sequence sorts ahead of all of it. */
  lemma AheadOfAll(e: RankingEntry, es: seq<RankingEntry>)
    requires Sorted(es) && es != [] && Ahead(e, es[0])
    ensures forall j :: 0 <= j < |es| ==> Ahead(e, es[j])
  {
    forall j | 0 < j < |es| ensures Ahead(e, es[j]) { AheadTransitive(e, es[0], es[j]); }
  }

  /** The head of a sorted sequence sorts ahead of any rearrangement of its tail plus an
    * entry of another user that does not sort ahead of it. */
  lemma HeadAheadOfRest(es: seq<RankingEntry>, e: RankingEntry, rest: seq<RankingEntry>)
    requires Sorted(es) && es != [] && !Ahead(e, es[0]) && e.userId != es[0].userId
    requires multiset(rest) == multiset(es[1..]) + multiset{e}
    ensures forall j :: 0 <= j < |rest| ==> Ahead(es[0], rest[j])
  {
    forall j | 0 <= j < |rest| ensures Ahead(es[0], rest[j]) {
      assert rest[j] in multiset(rest);
      if rest[j] != e {
        assert rest[j] in es[1..];
      } else {
        AheadTotal(e, es[0]);
      }
    }
  }

  /** Python's `list.sort` under the key (-xp, user id); entries of one user each. */
  function SortByRank(es: seq<RankingEntry>): (r: seq<RankingEntry>)
    requires Distinct(EntryIds(es))
    ensures Sorted(r) && multiset(r) == multiset(es)
  {
    if es == [] then []
    else
      DistinctTail(es);
      var sortedTail := SortByRank(es[1..]);
      KeepsOtherIds(es[1..], sortedTail, es[0].userId);
      assert es == [es[0]] + es[1..];
      Insert(es[0], sortedTail)
  }

  /** Dropping the head of a repeat-free listing leaves one, none of whose users is the head's. */
  lemma DistinctTail(es: seq<RankingEntry>)
    requires es != [] && Distinct(EntryIds(es))
    ensures Distinct(EntryIds(es[1..]))
    ensures forall i :: 0 <= i < |es[1..]| ==> es[1..][i].userId != es[0].userId
  {
    var tail := es[1..];
    forall i, j | 0 <= i < j < |tail| ensures EntryIds(tail)[i] != EntryIds(tail)[j] {
      assert EntryIds(es)[i + 1] != EntryIds(es)[j + 1];
    }
    forall i | 0 <= i < |tail| ensures tail[i].userId != es[0].userId {
      assert EntryIds(es)[0] != EntryIds(es)[i + 1];
    }
  }

  /** A rearrangement of entries none of which belongs to `userId` has none either. */
  lemma KeepsOtherIds(a: seq<RankingEntry>, b: seq<RankingEntry>, userId: string)
    requires multiset(a) == multiset(b)
    requires forall i :: 0 <= i < |a| ==> a[i].userId != userId
    ensures forall i :: 0 <= i < |b| ==> b[i].userId != userId
  {
    forall i | 0 <= i < |b| ensures b[i].userId != userId {
      assert b[i] in multiset(a);
    }
  }

  /** A sorted rearrangement of a listing of `m` is again a listing of `m`. */
  lemma SortedListing(a: seq<RankingEntry>, b: seq<RankingEntry>, m: map<string, RankingEntry>)
    requires Lists(a, m) && multiset(a) == multiset(b) && Sorted(b)
    ensures Lists(b, m)
  {
    forall i | 0 <= i < |b| ensures b[i].userId in m && m[b[i].userId] == b[i] {
      assert b[i] in multiset(a);
    }
    forall i, j | 0 <= i < j < |b| ensures EntryIds(b)[i] != EntryIds(b)[j] {
      AheadIrreflexive(b[i]);
    }
    forall k | k in m ensures k in EntryIds(b) {
      var j :| 0 <= j < |a| && EntryIds(a)[j] == k;
      assert a[j] in multiset(b);
      var i :| 0 <= i < |b| && b[i] == a[j];
      assert EntryIds(b)[i] == k;
    }
  }

  /** The first entry of a sorted sequence sorts ahead of every other one. */
  lemma SortedHead(a: seq<RankingEntry>, x: RankingEntry)
    requires Sorted(a) && x in a
    ensures x == a[0] || Ahead(a[0], x)
  {
  }

  /** The leaderboard order does not depend on the order the store lists its entries
    * in: two sorted arrangements of the same entries are the same sequence. */
  lemma {:induction false} SortedUnique(a: seq<RankingEntry>, b: seq<RankingEntry>)
    requires Sorted(a) && Sorted(b) && multiset(a) == multiset(b)
    ensures a == b
  {
    assert |b| == |a| by { assert |multiset(a)| == |multiset(b)|; }
    if a != [] {
      assert a[0] in multiset(b) && b[0] in multiset(a);
      SortedHead(a, b[0]);
      SortedHead(b, a[0]);
      AheadAsymmetric(a[0], b[0]);
      SameTails(a, b);
      SortedUnique(a[1..], b[1..]);
    }
  }

  /** Two rearrangements of each other that start alike continue alike. */
  lemma SameTails(a: seq<RankingEntry>, b: seq<RankingEntry>)
    requires a != [] && b != [] && a[0] == b[0] && multiset(a) == multiset(b)
    ensures multiset(a[1..]) == multiset(b[1..])
  {
    assert a == [a[0]] + a[1..] && b == [b[0]] + b[1..];
    assert multiset(a[1..]) == multiset(a) - multiset{a[0]};
    assert multiset(b[1..]) == multiset(b) - multiset{b[0]};
  }

  /** A subset is no larger than its superset, and a proper subset is strictly smaller. */
  lemma {:induction false} SubsetCardinality<T>(a: set<T>, b: set<T>)
    requires a <= b
    ensures |a| <= |b| && (a < b ==> |a| < |b|)
    decreases a
  {
    if a != {} {
      var x :| x in a;
      SubsetCardinality(a - {x}, b - {x});
    }
  }

  /** The users whose entries sort before `userId`'s. */
  function AheadOf(m: map<string, RankingEntry>, userId: string): set<string>
    requires userId in m
  {
    set k | k in m && Ahead(m[k], m[userId])
  }

  /** A user's leaderboard position: one more than the number of entries ahead of theirs. */
  function Position(m: map<string, RankingEntry>, userId: string): (r: int)
    requires userId in m
    ensures r >= 1
  {
    1 + |AheadOf(m, userId)|
  }

  /** Positions run from 1 to the number of entries. */
  lemma PositionBounds(m: map<string, RankingEntry>, userId: string)
    requires userId in m
    ensures 1 <= Position(m, userId) <= |m|
  {
    AheadIrreflexive(m[userId]);
    SubsetCardinality(AheadOf(m, userId), m.Keys - {userId});
    assert |m.Keys - {userId}| == |m.Keys| - 1;
  }

  /** An entry that sorts ahead of another has a strictly smaller position, so no two
    * users share a position. */
  lemma PositionMonotone(m: map<string, RankingEntry>, a: string, b: string)
    requires a in m && b in m && Ahead(m[a], m[b])
    ensures Position(m, a) < Position(m, b)
  {
    forall k | k in AheadOf(m, a) ensures k in AheadOf(m, b) {
      AheadTransitive(m[k], m[a], m[b]);
    }
    AheadIrreflexive(m[a]);
    assert a in AheadOf(m, b) - AheadOf(m, a);
    SubsetCardinality(AheadOf(m, a), AheadOf(m, b));
  }

  /** A listing has as many entries as the map. */
  lemma ListsSize(es: seq<RankingEntry>, m: map<string, RankingEntry>)
    requires Lists(es, m)
    ensures |es| == |m|
  {
    var ids := EntryIds(es);
    assert (set x | x in ids) == m.Keys;
    DistinctCardinality(ids);
  }

  /** In a sorted listing, the entry at index `i` has position `i + 1`. */
  lemma PositionInSorted(es: seq<RankingEntry>, m: map<string, RankingEntry>, i: int)
    requires Lists(es, m) && Sorted(es) && 0 <= i < |es|
    ensures Position(m, es[i].userId) == i + 1
  {
    var uid := es[i].userId;
    var before := EntryIds(es[..i]);
    forall k | k in AheadOf(m, uid) ensures k in before {
      var j :| 0 <= j < |es| && EntryIds(es)[j] == k;
      AheadIrreflexive(es[i]);
      AheadAsymmetric(es[i], es[j]);
      assert j < i;
      assert before[j] == k;
    }
    forall k | k in before ensures k in AheadOf(m, uid) {
      var j :| 0 <= j < i && before[j] == k;
      assert Ahead(es[j], es[i]);
    }
    assert (set x | x in before) == AheadOf(m, uid);
    assert Distinct(before) by {
      forall p, q | 0 <= p < q < |before| ensures before[p] != before[q] {
        assert EntryIds(es)[p] != EntryIds(es)[q];
      }
    }
    DistinctCardinality(before);
  }

  /** Each entry paired with its 1-based index. */
  function Positioned(es: seq<RankingEntry>): (out: seq<RankingEntryOut>)
    ensures |out| == |es| && forall i :: 0 <= i < |es| ==> out[i] == WithPosition(es[i], i + 1)
  {
    seq(|es|, i requires 0 <= i < |es| => WithPosition(es[i], i + 1))
  }

  /** What `global_ranking` promises of the positioned copy `out` of a sorted listing of `m`. */
  lemma LeaderboardFacts(es: seq<RankingEntry>, m: map<string, RankingEntry>, out: seq<RankingEntryOut>)
    requires Lists(es, m) && Sorted(es)
    requires |out| == |es| && forall i :: 0 <= i < |es| ==> out[i] == WithPosition(es[i], i + 1)
    ensures |out| == |m|
    ensures forall i :: 0 <= i < |out| ==>
      && out[i].userId in m
      && out[i] == WithPosition(m[out[i].userId], i + 1)
      && out[i].position == Position(m, out[i].userId)
    ensures forall k :: k in m ==> exists i :: 0 <= i < |out| && out[i].userId == k
    ensures forall i, j :: 0 <= i < j < |out| ==> out[i].xp >= out[j].xp
  {
    ListsSize(es, m);
    forall i | 0 <= i < |out|
      ensures && out[i].userId in m
              && out[i] == WithPosition(m[out[i].userId], i + 1)
              && out[i].position == Position(m, out[i].userId)
    {
      PositionInSorted(es, m, i);
    }
    forall k | k in m ensures exists i :: 0 <= i < |out| && out[i].userId == k {
      var i :| 0 <= i < |es| && EntryIds(es)[i] == k;
      assert out[i].userId == k;
    }
    forall i, j | 0 <= i < j < |out| ensures out[i].xp >= out[j].xp {
      assert Ahead(es[i], es[j]);
    }
  }

  class RankingService {
    const store: MemoryStore

    constructor (store: MemoryStore)
      ensures this.store == store
    {
      this.store := store;
    }

    /** Every ranking entry, in leaderboard order. */
    method SortedEntries() returns (es: seq<RankingEntry>)
      requires store.Valid()
      ensures Lists(es, store.ranking) && Sorted(es)
    {
      var listed := store.ListRanking();
      es := SortByRank(listed);
      SortedListing(listed, es, store.ranking);
    }

    /** The stored entry of `entry`'s user, with its position, or 404 when that user has none. */
    method EntryWithPosition(entry: RankingEntry) returns (r: Result<RankingEntryOut>)
      requires store.Valid()
      ensures r.Ok? <==> entry.userId in store.ranking
      ensures r.Ok? ==> r.value == WithPosition(store.ranking[entry.userId], Position(store.ranking, entry.userId))
      ensures r.Err? ==> r.error == HttpError(404, "Ranking entry not found")
    {
      var entries := SortedEntries();
      var index := 0;
      while index < |entries|
        invariant 0 <= index <= |entries|
        invariant forall j :: 0 <= j < index ==> entries[j].userId != entry.userId
      {
        if entries[index].userId == entry.userId {
          PositionInSorted(entries, store.ranking, index);
          return Ok(WithPosition(entries[index], index + 1));
        }
        index := index + 1;
      }
      assert forall j :: 0 <= j < |entries| ==> EntryIds(entries)[j] != entry.userId;
      return Err(HttpError(404, "Ranking entry not found"));
    }

    /** The whole leaderboard: every entry once, in order, position `i + 1` at index `i`. */
    method GlobalRanking() returns (out: seq<RankingEntryOut>)
      requires store.Valid()
      ensures |out| == |store.ranking|
      ensures forall i :: 0 <= i < |out| ==>
        && out[i].userId in store.ranking
        && out[i] == WithPosition(store.ranking[out[i].userId], i + 1)
        && out[i].position == Position(store.ranking, out[i].userId)
      ensures forall k :: k in store.ranking ==> exists i :: 0 <= i < |out| && out[i].userId == k
      ensures forall i, j :: 0 <= i < j < |out| ==> out[i].xp >= out[j].xp
    {
      var entries := SortedEntries();
      out := Positioned(entries);
      LeaderboardFacts(entries, store.ranking, out);
    }

    /** Sets the ranking entry of `userId`. With a profile, `xp` and `level` (when given)
      * are written to the profile first and the entry mirrors it, named by the profile's
      * display name or else its email; the caller's `displayName` is then ignored.
      * Without a profile both `xp` and `level` are required. */
    method Update(userId: string, xp: Option<int>, level: Option<int>, displayName: Option<string>, now: string)
      returns (r: Result<RankingEntryOut>)
      requires store.Valid()
      modifies store`ranking, store.ProfileFrame(userId)`xp, store.ProfileFrame(userId)`level
      ensures store.Valid()
      ensures r.Ok? <==> userId in store.profiles || (xp.Some? && level.Some?)
      ensures r.Err? ==> r.error == HttpError(404, "User profile not found") && store.ranking == old(store.ranking)
      ensures userId !in store.profiles && xp.Some? && level.Some? ==>
        store.ranking == old(store.ranking)[userId := RankingEntry(userId, displayName, xp.value, level.value, now)]
      ensures userId in store.profiles ==>
        var p: PlayerProfile := store.profiles[userId];
        && p.xp == (if xp.Some? then xp.value else old(p.xp))
        && p.level == (if level.Some? then level.value else old(p.level))
        && store.ranking == old(store.ranking)[userId := RankingEntry(userId, OrElse(p.displayName, p.email), p.xp, p.level, now)]
      ensures r.Ok? ==> r.value == WithPosition(store.ranking[userId], Position(store.ranking, userId))
    {
      var found := store.GetProfile(userId);
      var xpValue, levelValue, name;
      if found.Some? {
        var profile := found.value;
        if xp.Some? {
          profile.xp := xp.value;
        }
        if level.Some? {
          profile.level := level.value;
        }
        xpValue, levelValue := profile.xp, profile.level;
        name := OrElse(profile.displayName, profile.email);
      } else {
        if xp.None? || level.None? {
          return Err(HttpError(404, "User profile not found"));
        }
        xpValue, levelValue, name := xp.value, level.value, displayName;
      }
      var entry := RankingEntry(userId, name, xpValue, levelValue, now);
      store.SetRankingEntry(entry);
      r := EntryWithPosition(entry);
    }

    /** The ranking entry of the user with `email`, created from their profile when they have none yet. */
    method GetMe(email: string, now: string) returns (r: Result<RankingEntryOut>)
      requires store.Valid()
      modifies store`ranking
      ensures store.Valid()
      ensures r.Ok? <==> exists k :: k in store.profiles && store.profiles[k].email == Some(email)
      ensures r.Err? ==> r.error == HttpError(404, "User profile not found") && store.ranking == old(store.ranking)
      ensures r.Ok? ==>
        var uid := r.value.userId;
        && uid in store.profiles && store.profiles[uid].email == Some(email)
        && (uid in old(store.ranking) ==> store.ranking == old(store.ranking))
        && (uid !in old(store.ranking) ==>
              var p := store.profiles[uid];
              store.ranking == old(store.ranking)[uid := RankingEntry(uid, OrElse(p.displayName, p.email), p.xp, p.level, now)])
        && uid in store.ranking
        && r.value == WithPosition(store.ranking[uid], Position(store.ranking, uid))
    {
      var found := store.GetProfileByEmail(email);
      if found.None? {
        return Err(HttpError(404, "User profile not found"));
      }
      var profile := found.value;
      assert store.profiles[profile.id].email == Some(email);
      var existing := store.GetRankingEntry(profile.id);
      var entry;
      if existing.Some? {
        entry := existing.value;
      } else {
        entry := RankingEntry(profile.id, OrElse(profile.displayName, profile.email), profile.xp, profile.level, now);
        store.SetRankingEntry(entry);
      }
      assert entry.userId == profile.id && profile.id in store.ranking;
      r := EntryWithPosition(entry);
      assert store.profiles[profile.id].email == Some(email);
      assert r.Ok?;
    }
  }
}

=== FILE: text.dfy ===
/** The string helpers the services rely on: Python's `strip()`, `lower()`,
  * `startswith`, `split(" ", 1)` and the ordering of `str` values. */
module Text {
  import opened Wrappers

  /** Python's `str.isspace()` for one character: the characters `strip()` removes. */
  predicate IsSpace(c: char)
  {
    var n := c as int;
    (9 <= n <= 13) || (28 <= n <= 32) || n == 0x85 || n == 0xA0 || n == 0x1680
    || (0x2000 <= n <= 0x200A) || n == 0x2028 || n == 0x2029 || n == 0x202F
    || n == 0x205F || n == 0x3000
  }

  /** `s.lstrip()`: the suffix of `s` left after dropping leading whitespace. */
  function StripLeft(s: string): (r: string)
    ensures |r| <= |s| && r == s[|s| - |r|..]
    ensures forall i :: 0 <= i < |s| - |r| ==> IsSpace(s[i])
    ensures r == [] || !IsSpace(r[0])
  {
    if |s| > 0 && IsSpace(s[0]) then StripLeft(s[1..]) else s
  }

  /** `s.rstrip()`: the prefix of `s` left after dropping trailing whitespace. */
  function StripRight(s: string): (r: string)
    ensures |r| <= |s| && r == s[..|r|]
    ensures forall i :: |r| <= i < |s| ==> IsSpace(s[i])
    ensures r == [] || !IsSpace(r[|r| - 1])
  {
    if |s| > 0 && IsSpace(s[|s| - 1]) then StripRight(s[..|s| - 1]) else s
  }

  /** `s.strip()`. */
  function Strip(s: string): (r: string)
    ensures |r| <= |s|
    ensures r == [] || (!IsSpace(r[0]) && !IsSpace(r[|r| - 1]))
    ensures r == [] <==> forall i :: 0 <= i < |s| ==> IsSpace(s[i])
  {
    var t := StripLeft(s);
    var r := StripRight(t);
    assert r != [] ==> r[0] == t[0];
    r
  }

  /** The strip of `s` is the slice of `s` left once the whitespace at both ends
    * is cut off, and no more, since the slice begins and ends with a non-space. */
  lemma StripCutsOuterSpace(s: string)
    ensures exists i, j ::
      && 0 <= i <= j <= |s| && Strip(s) == s[i..j]
      && (forall k :: 0 <= k < i ==> IsSpace(s[k]))
      && (forall k :: j <= k < |s| ==> IsSpace(s[k]))
  {
    TrimmedSlice(s, StripLeft(s), Strip(s));
  }

  /** The sequence reasoning behind the lemma above: a prefix `r` of a suffix
    * `t` of `s`, with only whitespace before `t` in `s` and after `r` in `t`,
    * is a slice of `s` with only whitespace around it. */
  lemma TrimmedSlice(s: string, t: string, r: string)
    requires |t| <= |s| && t == s[|s| - |t|..]
    requires forall k :: 0 <= k < |s| - |t| ==> IsSpace(s[k])
    requires |r| <= |t| && r == t[..|r|]
    requires forall k :: |r| <= k < |t| ==> IsSpace(t[k])
    ensures exists i, j ::
      && 0 <= i <= j <= |s| && r == s[i..j]
      && (forall k :: 0 <= k < i ==> IsSpace(s[k]))
      && (forall k :: j <= k < |s| ==> IsSpace(s[k]))
  {
    var i := |s| - |t|;
    var j := i + |r|;
    forall k | j <= k < |s|
      ensures IsSpace(s[k])
    {
      assert s[k] == t[k - i];
    }
    assert r == s[i..j];
  }

  /** A string already stripped is its own strip. */
  lemma {:induction false} StripStripped(s: string)
    requires s == [] || (!IsSpace(s[0]) && !IsSpace(s[|s| - 1]))
    ensures Strip(s) == s
  {
  }

  /** `c.lower()` restricted to ASCII: 'A'..'Z' become 'a'..'z'. */
  function LowerChar(c: char): char
  {
    if 'A' <= c <= 'Z' then (c as int - 'A' as int + 'a' as int) as char else c
  }

  /** `s.lower()` restricted to ASCII letters. */
  function Lower(s: string): (r: string)
    ensures |r| == |s|
  {
    seq(|s|, i requires 0 <= i < |s| => LowerChar(s[i]))
  }

  /** The normalisation an answer goes through before it is compared, `strip().lower()`,
    * written as one recursion: drop a space at either end, then lower-case. */
  function Normalize(s: string): string
  {
    if |s| > 0 && IsSpace(s[0]) then Normalize(s[1..])
    else if |s| > 0 && IsSpace(s[|s| - 1]) then Normalize(s[..|s| - 1])
    else Lower(s)
  }

  /** The recursion above is exactly `strip()` followed by `lower()`. */
  lemma {:induction false} NormalizeIsLowerStrip(s: string)
    ensures Normalize(s) == Lower(Strip(s))
  {
    if |s| > 0 && IsSpace(s[0]) {
      NormalizeIsLowerStrip(s[1..]);
      assert StripLeft(s) == StripLeft(s[1..]);
    } else if |s| > 0 && IsSpace(s[|s| - 1]) {
      NormalizeIsLowerStrip(s[..|s| - 1]);
      StripDropLast(s);
    } else {
      StripStripped(s);
    }
  }

  /** Dropping a trailing space does not change the strip. */
  lemma StripDropLast(s: string)
    requires |s| > 0 && !IsSpace(s[0]) && IsSpace(s[|s| - 1])
    ensures Strip(s[..|s| - 1]) == Strip(s)
  {
    var t := s[..|s| - 1];
    assert StripLeft(s) == s;
    if t != [] { assert StripLeft(t) == t; }
    assert StripRight(s) == StripRight(t);
  }

  /** Normalising twice is normalising once. */
  lemma NormalizeIdempotent(s: string)
    ensures Normalize(Normalize(s)) == Normalize(s)
  {
    NormalizeIsLowerStrip(s);
    var u := Strip(s);
    LowerKeepsStripped(u);
    NormalizeIsLowerStrip(Lower(u));
    LowerIdempotent(u);
  }

  /** Lower-casing a stripped string leaves it stripped. */
  lemma LowerKeepsStripped(u: string)
    requires u == [] || (!IsSpace(u[0]) && !IsSpace(u[|u| - 1]))
    ensures Strip(Lower(u)) == Lower(u)
  {
    if u != [] {
      LowerKeepsSpace(u[0]);
      LowerKeepsSpace(u[|u| - 1]);
    }
    StripStripped(Lower(u));
  }

  lemma LowerIdempotent(u: string)
    ensures Lower(Lower(u)) == Lower(u)
  {
    var t := Lower(u);
    forall i | 0 <= i < |t| ensures Lower(t)[i] == t[i] {
      LowerCharIdempotent(u[i]);
    }
  }

  lemma LowerKeepsSpace(c: char)
    ensures IsSpace(LowerChar(c)) == IsSpace(c)
  {
  }

  lemma LowerCharIdempotent(c: char)
    ensures LowerChar(LowerChar(c)) == LowerChar(c)
  {
  }

  /** `s.startswith(prefix)`. */
  predicate StartsWith(s: string, prefix: string)
  {
    |prefix| <= |s| && s[..|prefix|] == prefix
  }

  /** The index of the first occurrence of `c` in `s`, as `str.find` gives it. */
  function FindChar(s: string, c: char): (r: Option<nat>)
    ensures r.Some? ==> r.value < |s| && s[r.value] == c && c !in s[..r.value]
    ensures r.None? ==> c !in s
  {
    if |s| == 0 then None
    else if s[0] == c then Some(0)
    else match FindChar(s[1..], c)
      case None => None
      case Some(k) => assert s[..k + 1] == [s[0]] + s[1..][..k]; Some(k + 1)
  }

  /** `s.split(sep, 1)[1]`: the text after the first `sep`, if there is one. */
  function AfterFirst(s: string, sep: char): (r: Option<string>)
  {
    match FindChar(s, sep)
    case None => None
    case Some(k) => Some(s[k + 1..])
  }

  /** When `s` starts with `p + [sep]` and `p` holds no `sep`, the text after the
    * first `sep` is everything after that prefix. */
  lemma {:induction false} AfterFirstPrefix(s: string, p: string, sep: char)
    requires StartsWith(s, p + [sep]) && sep !in p
    ensures AfterFirst(s, sep) == Some(s[|p| + 1..])
  {
    FindFirstAt(s, sep, |p|);
  }

  lemma {:induction false} FindFirstAt(s: string, c: char, k: nat)
    requires k < |s| && s[k] == c && c !in s[..k]
    ensures FindChar(s, c) == Some(k)
  {
    if k > 0 {
      assert s[1..][..k - 1] == s[1..k];
      assert forall x :: x in s[1..k] ==> x in s[..k];
      FindFirstAt(s[1..], c, k - 1);
    }
  }

  /** Python's `<` on `str`: lexicographic by code point, a proper prefix first. */
  predicate LexLess(a: string, b: string)
  {
    if |a| == 0 then |b| > 0
    else if |b| == 0 then false
    else if a[0] != b[0] then a[0] < b[0]
    else LexLess(a[1..], b[1..])
  }

  lemma {:induction false} LexLessIrreflexive(a: string)
    ensures !LexLess(a, a)
  {
    if |a| > 0 { LexLessIrreflexive(a[1..]); }
  }

  lemma {:induction false} LexLessAsymmetric(a: string, b: string)
    ensures !(LexLess(a, b) && LexLess(b, a))
  {
    if |a| > 0 && |b| > 0 && a[0] == b[0] { LexLessAsymmetric(a[1..], b[1..]); }
  }

  lemma {:induction false} LexLessTransitive(a: string, b: string, c: string)
    requires LexLess(a, b) && LexLess(b, c)
    ensures LexLess(a, c)
  {
    if |a| > 0 && |b| > 0 && |c| > 0 && a[0] == b[0] && b[0] == c[0] {
      LexLessTransitive(a[1..], b[1..], c[1..]);
    }
  }

  /** Any two different strings are ordered one way or the other. */
  lemma {:induction false} LexLessTotal(a: string, b: string)
    requires a != b
    ensures LexLess(a, b) || LexLess(b, a)
  {
    if |a| > 0 && |b| > 0 && a[0] == b[0] {
      assert a == [a[0]] + a[1..] && b == [b[0]] + b[1..];
      LexLessTotal(a[1..], b[1..]);
    }
  }
}

=== FILE: user_service.dfy ===
/** Player profiles: creation with defaults, lookup, partial update and statistics. */
module Users {
  import opened Wrappers
  import opened Memory

  /** The creation payload; every field may be absent. */
  datatype UserCreateIn = UserCreateIn(
    email: Option<string>, displayName: Option<string>, language: Option<string>,
    xp: Option<int>, level: Option<int>, progress: Option<map<string, int>>,
    currentStreak: Option<int>, longestStreak: Option<int>, lastLoginDate: Option<string>,
    lessonsCompletedToday: Option<int>, lastLessonDate: Option<string>)

  /** The update payload; an absent field is left as it is. */
  datatype UserUpdateIn = UserUpdateIn(
    displayName: Option<string>, language: Option<string>, xp: Option<int>, level: Option<int>,
    progress: Option<map<string, int>>, currentStreak: Option<int>, longestStreak: Option<int>,
    lastLoginDate: Option<string>, lessonsCompletedToday: Option<int>, lastLessonDate: Option<string>)

  /** A profile as returned to clients: every field but the statistics. */
  datatype ProfileOut = ProfileOut(
    id: string, email: Option<string>, displayName: Option<string>, language: string,
    xp: int, level: int, progress: map<string, int>, currentStreak: int, longestStreak: int,
    lastLoginDate: Option<string>, lessonsCompletedToday: int, lastLessonDate: Option<string>)

  datatype UserStatsOut = UserStatsOut(userId: string, gamesPlayed: int, questionsAnswered: int, correctAnswers: int)

  /** The public form of a profile: every field but the statistics. */
  function ToOut(p: PlayerProfile): (r: ProfileOut)
    reads p
    ensures r.id == p.id && r.email == p.email && r.xp == p.xp && r.level == p.level
    ensures r.progress == p.progress && r.lastLoginDate == p.lastLoginDate
    ensures r.displayName == p.displayName && r.language == p.language
    ensures r.currentStreak == p.currentStreak && r.longestStreak == p.longestStreak
    ensures r.lessonsCompletedToday == p.lessonsCompletedToday && r.lastLessonDate == p.lastLessonDate
  {
    ProfileOut(p.id, p.email, p.displayName, p.language, p.xp, p.level, p.progress,
               p.currentStreak, p.longestStreak, p.lastLoginDate, p.lessonsCompletedToday, p.lastLessonDate)
  }

  /** The value of an optional field, or `default` when it is absent. */
  function ValueOr<T>(o: Option<T>, default: T): T
  {
    if o.Some? then o.value else default
  }

  /** An optional field's patch: the given value if there is one, else the current one. */
  function SomeOr<T>(o: Option<T>, current: Option<T>): Option<T>
  {
    if o.Some? then o else current
  }

  /** The profile `create_profile` builds for `userId` out of `payload`, with
    * `levelOf` as the progression curve. */
  function NewProfile(userId: string, payload: UserCreateIn, levelOf: int -> int): (r: ProfileOut)
    ensures r.id == userId && r.email == payload.email && r.displayName == payload.displayName
    ensures r.lastLoginDate == payload.lastLoginDate && r.lastLessonDate == payload.lastLessonDate
    ensures payload.language.Some? && payload.language.value != "" ==> r.language == payload.language.value
    ensures payload.language.None? || payload.language.value == "" ==> r.language == "pt"
    ensures payload.xp.Some? ==> r.xp == payload.xp.value
    ensures payload.xp.None? ==> r.xp == 0
    ensures payload.level.Some? ==> r.level == payload.level.value
    ensures payload.level.None? ==> r.level == levelOf(r.xp)
    ensures payload.progress.Some? ==> r.progress == payload.progress.value
    ensures payload.progress.None? ==> r.progress == map[]
    ensures payload.currentStreak.Some? ==> r.currentStreak == payload.currentStreak.value
    ensures payload.currentStreak.None? ==> r.currentStreak == 0
    ensures payload.longestStreak.Some? ==> r.longestStreak == payload.longestStreak.value
    ensures payload.longestStreak.None? ==> r.longestStreak == r.currentStreak
    ensures payload.lessonsCompletedToday.Some? ==> r.lessonsCompletedToday == payload.lessonsCompletedToday.value
    ensures payload.lessonsCompletedToday.None? ==> r.lessonsCompletedToday == 0
  {
    // `payload.xp or 0` and `x if x is not None else 0` agree: a given 0 stays 0.
    var xp := ValueOr(payload.xp, 0);
    var level := if payload.level.None? then levelOf(xp) else payload.level.value;
    var currentStreak := ValueOr(payload.currentStreak, 0);
    var longestStreak := ValueOr(payload.longestStreak, currentStreak);
    var lessons := ValueOr(payload.lessonsCompletedToday, 0);
    // `payload.language or "pt"`: an empty string counts as absent.
    var language := if payload.language.Some? && payload.language.value != "" then payload.language.value else "pt";
    ProfileOut(userId, payload.email, payload.displayName, language, xp, level, ValueOr(payload.progress, map[]),
               currentStreak, longestStreak, payload.lastLoginDate, lessons, payload.lastLessonDate)
  }

  /** A created profile always has a language. */
  lemma NewProfileHasLanguage(userId: string, payload: UserCreateIn, levelOf: int -> int)
    ensures NewProfile(userId, payload, levelOf).language != ""
  {
  }

  /** What `update_profile` makes of the profile `v` under `patch`. */
  function Patched(v: ProfileOut, patch: UserUpdateIn, levelOf: int -> int): (r: ProfileOut)
    ensures r.id == v.id && r.email == v.email
  {
    var xp := ValueOr(patch.xp, v.xp);
    var level :=
      if patch.level.Some? then patch.level.value
      else if patch.xp.Some? then levelOf(xp)
      else v.level;
    var progress := if patch.progress.Some? then Merge(v.progress, patch.progress.value) else v.progress;
    ProfileOut(v.id, v.email, SomeOr(patch.displayName, v.displayName), ValueOr(patch.language, v.language),
               xp, level, progress,
               ValueOr(patch.currentStreak, v.currentStreak), ValueOr(patch.longestStreak, v.longestStreak),
               SomeOr(patch.lastLoginDate, v.lastLoginDate),
               ValueOr(patch.lessonsCompletedToday, v.lessonsCompletedToday),
               SomeOr(patch.lastLessonDate, v.lastLessonDate))
  }

  /** A field the patch leaves out keeps its value; the id and email never change. */
  lemma PatchedKeepsAbsentFields(v: ProfileOut, patch: UserUpdateIn, levelOf: int -> int)
    ensures var r := Patched(v, patch, levelOf);
      && r.id == v.id && r.email == v.email
      && (patch.displayName.None? ==> r.displayName == v.displayName)
      && (patch.language.None? ==> r.language == v.language)
      && (patch.xp.None? ==> r.xp == v.xp)
      && (patch.xp.None? && patch.level.None? ==> r.level == v.level)
      && (patch.progress.None? ==> r.progress == v.progress)
      && (patch.currentStreak.None? ==> r.currentStreak == v.currentStreak)
      && (patch.longestStreak.None? ==> r.longestStreak == v.longestStreak)
      && (patch.lastLoginDate.None? ==> r.lastLoginDate == v.lastLoginDate)
      && (patch.lessonsCompletedToday.None? ==> r.lessonsCompletedToday == v.lessonsCompletedToday)
      && (patch.lastLessonDate.None? ==> r.lastLessonDate == v.lastLessonDate)
  {
  }

  /** A field the patch supplies takes the supplied value. */
  lemma PatchedTakesGivenFields(v: ProfileOut, patch: UserUpdateIn, levelOf: int -> int)
    ensures var r := Patched(v, patch, levelOf);
      && (patch.displayName.Some? ==> r.displayName == patch.displayName)
      && (patch.language.Some? ==> r.language == patch.language.value)
      && (patch.xp.Some? ==> r.xp == patch.xp.value)
      && (patch.currentStreak.Some? ==> r.currentStreak == patch.currentStreak.value)
      && (patch.longestStreak.Some? ==> r.longestStreak == patch.longestStreak.value)
      && (patch.lastLoginDate.Some? ==> r.lastLoginDate == patch.lastLoginDate)
      && (patch.lessonsCompletedToday.Some? ==> r.lessonsCompletedToday == patch.lessonsCompletedToday.value)
      && (patch.lastLessonDate.Some? ==> r.lastLessonDate == patch.lastLessonDate)
  {
  }

  /** An explicit level always wins; a new xp without one recomputes the level. */
  lemma PatchedLevelPrecedence(v: ProfileOut, patch: UserUpdateIn, levelOf: int -> int)
    ensures patch.level.Some? ==> Patched(v, patch, levelOf).level == patch.level.value
    ensures patch.level.None? && patch.xp.Some? ==>
      Patched(v, patch, levelOf).level == levelOf(Patched(v, patch, levelOf).xp)
  {
  }

  /** The progress patch is merged key by key: supplied keys take the supplied
    * values, every other key keeps its value, and no key is dropped. */
  lemma PatchedMergesProgress(v: ProfileOut, patch: UserUpdateIn, levelOf: int -> int)
    requires patch.progress.Some?
    ensures var r := Patched(v, patch, levelOf);
      && r.progress.Keys == v.progress.Keys + patch.progress.value.Keys
      && (forall k :: k in patch.progress.value ==> r.progress[k] == patch.progress.value[k])
      && (forall k :: k in v.progress && k !in patch.progress.value ==> r.progress[k] == v.progress[k])
  {
  }

  /** A profile that agrees with `Patched` field by field is the patched profile. */
  lemma PatchedByFields(v: ProfileOut, w: ProfileOut, patch: UserUpdateIn, levelOf: int -> int)
    requires w.id == v.id && w.email == v.email
    requires w.displayName == SomeOr(patch.displayName, v.displayName)
    requires w.language == ValueOr(patch.language, v.language)
    requires w.xp == ValueOr(patch.xp, v.xp)
    requires patch.level.Some? ==> w.level == patch.level.value
    requires patch.level.None? && patch.xp.Some? ==> w.level == levelOf(patch.xp.value)
    requires patch.level.None? && patch.xp.None? ==> w.level == v.level
    requires patch.progress.Some? ==> w.progress == Merge(v.progress, patch.progress.value)
    requires patch.progress.None? ==> w.progress == v.progress
    requires w.currentStreak == ValueOr(patch.currentStreak, v.currentStreak)
    requires w.longestStreak == ValueOr(patch.longestStreak, v.longestStreak)
    requires w.lastLoginDate == SomeOr(patch.lastLoginDate, v.lastLoginDate)
    requires w.lessonsCompletedToday == ValueOr(patch.lessonsCompletedToday, v.lessonsCompletedToday)
    requires w.lastLessonDate == SomeOr(patch.lastLessonDate, v.lastLessonDate)
    ensures w == Patched(v, patch, levelOf)
  {
  }

  /** Applying the same patch twice is applying it once. */
  lemma PatchedIdempotent(v: ProfileOut, patch: UserUpdateIn, levelOf: int -> int)
    ensures Patched(Patched(v, patch, levelOf), patch, levelOf) == Patched(v, patch, levelOf)
  {
    if patch.progress.Some? {
      MergeIdempotent(v.progress, patch.progress.value);
    }
  }

  /** A patch with no fields changes nothing. */
  lemma PatchedEmpty(v: ProfileOut, levelOf: int -> int)
    ensures Patched(v, UserUpdateIn(None, None, None, None, None, None, None, None, None, None), levelOf) == v
  {
  }

  class UserService {
    const store: MemoryStore
    /** The progression curve `calculate_level`, whose definition is not part of this model. */
    const calculateLevel: int -> int

    constructor (store: MemoryStore, calculateLevel: int -> int)
      ensures this.store == store && this.calculateLevel == calculateLevel
    {
      this.store := store;
      this.calculateLevel := calculateLevel;
    }

    /** Creates the profile of `userId` from `payload`, with fresh zero statistics. */
    method CreateProfile(userId: string, payload: UserCreateIn) returns (r: Result<ProfileOut>)
      requires store.Valid()
      modifies store`profiles
      ensures store.Valid()
      ensures old(userId in store.profiles) ==>
        r == Err(HttpError(409, "User already exists")) && store.profiles == old(store.profiles)
      ensures old(userId !in store.profiles) ==>
        && userId in store.profiles
        && store.profiles == old(store.profiles)[userId := store.profiles[userId]]
        && fresh(store.profiles[userId])
        && ToOut(store.profiles[userId]) == NewProfile(userId, payload, calculateLevel)
        && store.profiles[userId].stats == NoStats
        && r == Ok(ToOut(store.profiles[userId]))
    {
      if store.GetProfile(userId).Some? {
        return Err(HttpError(409, "User already exists"));
      }
      var v := NewProfile(userId, payload, calculateLevel);
      var profile := new PlayerProfile(userId, v.email, v.displayName, v.language, v.xp, v.level, v.progress,
                                       v.currentStreak, v.longestStreak, v.lastLoginDate,
                                       v.lessonsCompletedToday, v.lastLessonDate);
      store.SetProfile(userId, profile);
      r := Ok(ToOut(profile));
    }

    /** The profile of `userId`, or 404. */
    method GetProfile(userId: string) returns (r: Result<ProfileOut>)
      requires store.Valid()
      ensures r.Ok? <==> userId in store.profiles
      ensures r.Ok? ==> r.value == ToOut(store.profiles[userId])
      ensures r.Err? ==> r.error == HttpError(404, "User profile not found")
    {
      var found := store.GetProfile(userId);
      if found.None? {
        return Err(HttpError(404, "User profile not found"));
      }
      r := Ok(ToOut(found.value));
    }

    /** Writes the fields `payload` gives onto the profile of `userId`, field by field. */
    method UpdateProfile(userId: string, payload: UserUpdateIn) returns (r: Result<ProfileOut>)
      requires store.Valid()
      modifies store.ProfileFrame(userId)`displayName, store.ProfileFrame(userId)`language
      modifies store.ProfileFrame(userId)`xp, store.ProfileFrame(userId)`level, store.ProfileFrame(userId)`progress
      modifies store.ProfileFrame(userId)`currentStreak, store.ProfileFrame(userId)`longestStreak
      modifies store.ProfileFrame(userId)`lastLoginDate, store.ProfileFrame(userId)`lessonsCompletedToday
      modifies store.ProfileFrame(userId)`lastLessonDate
      ensures store.Valid()
      ensures userId !in store.profiles ==> r == Err(HttpError(404, "User profile not found"))
      ensures userId in store.profiles ==>
        var p: PlayerProfile := store.profiles[userId];
        && ToOut(p) == Patched(old(ToOut(p)), payload, calculateLevel)
        && r == Ok(ToOut(p))
    {
      var found := store.GetProfile(userId);
      if found.None? {
        return Err(HttpError(404, "User profile not found"));
      }
      var profile := found.value;
      assert store.ProfileFrame(userId) == {profile};
      Patch(profile, payload);
      r := Ok(ToOut(profile));
    }

    /** The field assignments of `update_profile`, in the order the service makes them. */
    method Patch(profile: PlayerProfile, payload: UserUpdateIn)
      modifies profile`displayName, profile`language, profile`xp, profile`level, profile`progress
      modifies profile`currentStreak, profile`longestStreak, profile`lastLoginDate
      modifies profile`lessonsCompletedToday, profile`lastLessonDate
      ensures ToOut(profile) == Patched(old(ToOut(profile)), payload, calculateLevel)
    {
      ghost var before := ToOut(profile);
      PatchNames(profile, payload);
      PatchProgression(profile, payload);
      PatchStreaks(profile, payload);
      PatchedByFields(before, ToOut(profile), payload, calculateLevel);
    }

    /** The display-name and language steps of `update_profile`. */
    method PatchNames(profile: PlayerProfile, payload: UserUpdateIn)
      modifies profile`displayName, profile`language
      ensures profile.displayName == SomeOr(payload.displayName, old(profile.displayName))
      ensures profile.language == ValueOr(payload.language, old(profile.language))
    {
      if payload.displayName.Some? {
        profile.displayName := payload.displayName;
      }
      if payload.language.Some? {
        profile.language := payload.language.value;
      }
    }

    /** The xp, level and progress steps of `update_profile`: an explicit level is
      * written last, so it wins over the one recomputed from a new xp. */
    method PatchProgression(profile: PlayerProfile, payload: UserUpdateIn)
      modifies profile`xp, profile`level, profile`progress
      ensures profile.xp == ValueOr(payload.xp, old(profile.xp))
      ensures payload.level.Some? ==> profile.level == payload.level.value
      ensures payload.level.None? && payload.xp.Some? ==> profile.level == calculateLevel(payload.xp.value)
      ensures payload.level.None? && payload.xp.None? ==> profile.level == old(profile.level)
      ensures payload.progress.Some? ==> profile.progress == Merge(old(profile.progress), payload.progress.value)
      ensures payload.progress.None? ==> profile.progress == old(profile.progress)
    {
      if payload.xp.Some? {
        profile.xp := payload.xp.value;
        if payload.level.None? {
          profile.level := calculateLevel(profile.xp);
        }
      }
      if payload.level.Some? {
        profile.level := payload.level.value;
      }
      if payload.progress.Some? {
        profile.progress := Merge(profile.progress, payload.progress.value);
      }
    }

    /** The streak and lesson steps of `update_profile`. */
    method PatchStreaks(profile: PlayerProfile, payload: UserUpdateIn)
      modifies profile`currentStreak, profile`longestStreak, profile`lastLoginDate
      modifies profile`lessonsCompletedToday, profile`lastLessonDate
      ensures profile.currentStreak == ValueOr(payload.currentStreak, old(profile.currentStreak))
      ensures profile.longestStreak == ValueOr(payload.longestStreak, old(profile.longestStreak))
      ensures profile.lastLoginDate == SomeOr(payload.lastLoginDate, old(profile.lastLoginDate))
      ensures profile.lessonsCompletedToday == ValueOr(payload.lessonsCompletedToday, old(profile.lessonsCompletedToday))
      ensures profile.lastLessonDate == SomeOr(payload.lastLessonDate, old(profile.lastLessonDate))
    {
      if payload.currentStreak.Some? {
        profile.currentStreak := payload.currentStreak.value;
      }
      if payload.longestStreak.Some? {
        profile.longestStreak := payload.longestStreak.value;
      }
      if payload.lastLoginDate.Some? {
        profile.lastLoginDate := payload.lastLoginDate;
      }
      if payload.lessonsCompletedToday.Some? {
        profile.lessonsCompletedToday := payload.lessonsCompletedToday.value;
      }
      if payload.lastLessonDate.Some? {
        profile.lastLessonDate := payload.lastLessonDate;
      }
    }

    /** The integer statistics of `userId`; at most as many correct answers as answers. */
    method GetStats(userId: string) returns (r: Result<UserStatsOut>)
      requires store.Valid()
      ensures r.Ok? <==> userId in store.profiles
      ensures r.Err? ==> r.error == HttpError(404, "User profile not found")
      ensures r.Ok? ==>
        var s := store.profiles[userId].stats;
        && r.value == UserStatsOut(userId, s.gamesPlayed, s.questionsAnswered, s.correctAnswers)
        && 0 <= r.value.correctAnswers <= r.value.questionsAnswered
    {
      var found := store.GetProfile(userId);
      if found.None? {
        return Err(HttpError(404, "User profile not found"));
      }
      var profile := found.value;
      var stats := profile.stats;
      r := Ok(UserStatsOut(profile.id, stats.gamesPlayed, stats.questionsAnswered, stats.correctAnswers));
    }
  }
}

=== FILE: wrappers.dfy ===
/** Optional values and the error results the services raise as HTTP exceptions. */
module Wrappers {

  datatype Option<+T> = None | Some(value: T)

  /** An HTTP exception: a status code and its detail message. */
  datatype HttpError = HttpError(status: int, detail: string)

  datatype Result<+T> = Ok(value: T) | Err(error: HttpError)

  /** Python's `a or b` on optional strings: `a` unless it is None or empty, else `b`. */
  function OrElse(a: Option<string>, b: Option<string>): (r: Option<string>)
    ensures a.Some? && a.value != "" ==> r == a
    ensures (a.None? || a.value == "") ==> r == b
  {
    if a.Some? && a.value != "" then a else b
  }
}
